=== FILE: README.md ===
# Compiler server: a Dafny model of its execution core

The server accepts source code in Java, Python, C or C++ together with a list
of inputs. It writes the code to a uniquely named file and picks a compile
command and a run command from the file extension. It then runs the program
once per input, concurrently, and answers with one result per input.
`POST /run-code` answers with `{ input, output }` records. `POST /submit-code`
also runs a reference solution on the same inputs and answers with
`{ input, match, userOutput, correctOutput }` records. When the number of
callbacks reaches the number of inputs, the server deletes the source file,
the output file and the output file with `.class` appended, and sends the
reply.

The model follows the two source files module by module:

- `JsText` covers the JavaScript string behaviour the core relies on:
  `String.prototype.trim` with its whitespace set, the regex classes `\s` and
  `\w`, and `Number.prototype.toString` for integers.
- `Preprocess` covers the request-side text handling:
  - `escapeNewLinesInDoubleQuotes`, as the left-to-right global-replace scan
    of `/"[^"]*?\n[^"]*?"/g`;
  - the `public\s+class\s+(\w+)` rewrite;
  - class-name extraction with `class\s+(\w+)`;
  - `generateUniqueFileName`, with the uuid as a parameter;
  - the two handlers' preparation orders.
- `Toolchains` is the `switch (fileExtension)`.
- `Stages` covers `runCommand` and `run` (index.js:54-87). The operating
  system is a `World` function that says, for each launched process,
  whether it exits successfully, fails or never exits, and whether writing
  its stdin throws. RunCommands.js holds a second copy of these two
  functions. Nothing loads that file, and as written it cannot run: it never
  imports `exec`, and its `runCommand` calls a `run` that exists only as
  `exports.run`. The model therefore follows the copy in index.js.
- `FanOut` is the result collector: a pre-sized array and a counter. The
  pure `Tally`/`Replay` state machine is specified over any order of
  callbacks. The `Collector` class updates its array in place and is proved
  to follow that state machine.
- `Cleanup` covers `cleanupFiles` over a filesystem modelled as the set of
  existing paths. It is a method with a loop over the output extensions.
- `Jobs` covers `compileAndRun` and the collector of `processCode`. The
  interleaving of the inputs' callbacks is a parameter (`order`).
- `Grading` is `compareOutputs`.
- `Requests` strings the steps together into the two handlers:
  1. validate;
  2. prepare the code;
  3. derive the program name and the paths;
  4. write the file or files;
  5. switch on the extension;
  6. run the job or jobs;
  7. clean up;
  8. reply.

Where the code behaves in a way a reader may not expect, the model follows
the code:

- The source file is written before the extension switch. An unsupported
  extension is therefore rejected only after the file exists, and nothing
  deletes that file (`Requests.UnsupportedExtensionLeavesFile`).
- Results are plain strings. A compile or run failure is reported as a
  prefixed message in the `output` field, with no separate failure flag or
  stage. A program that prints such a message cannot be told apart from a
  real failure (`Stages.FailureIndistinguishableFromOutput`).
- Each input is compiled separately, in its own `runCommand`.
- The reference solution goes through the switch on the candidate's
  extension and the candidate's program name. Its own extension only names
  its file, so for compiled languages both jobs run the same command and
  share one output file (`Toolchains.ReferenceSharesArtifacts`).
- `/run-code` escapes newlines first and then rewrites `public class`.
  `/submit-code` does these in the opposite order. The two orders agree on
  code without double quotes (`Preprocess.PreparationOrdersAgreeWithoutQuotes`).
- The completion branch counts callbacks, not inputs. When writing to a
  child's stdin throws, that input calls back twice. The branch can then run
  while another input's slot is still a hole (`Jobs.HoleWhenCountedEarly`,
  `Jobs.StdinErrorCanLeaveHole`).
- An empty `inputs` array passes validation, but the completion branch never
  runs. The request gets no answer and the source file stays on disk
  (`Requests.EmptyInputsNeverAnswered`).
- `exec` is given no timeout. When no stdin write throws, a compiler or
  program that never exits means no answer and no cleanup
  (`Jobs.HangNeverAnswered`, `Requests.HangingRunNeverAnswered`). In
  `/submit-code` it also means the reference job never starts
  (`Requests.HangingCandidateNeverAnswered`). If another input's stdin write
  throws, its extra callback can make up the count, and the job can still
  complete with a hole.
- Cleanup removes only the source file, `outputFile` and `outputFile.class`,
  where `outputFile` is named after the first `class <word>` match. Every
  other file the compiler writes stays on disk: `javac` writes one `.class`
  file per class, nested classes included. When the first match lies in a
  comment or a string, the class file `javac` writes for the real class
  stays too.

## Model

| member | source | states |
|---|---|---|
| JsText.IsSpace | index.js:132 | the characters `\s` and `trim` treat as whitespace: the JavaScript white space and line terminator characters |
| JsText.IsWordChar | index.js:132 | the characters `\w` accepts: ASCII letters, digits and `_` |
| JsText.LeadingSpace | index.js:74 | the count of leading characters removed by `trim` is a maximal run of whitespace |
| JsText.TrailingSpace | index.js:74 | the count of trailing characters removed by `trim` is a maximal run of whitespace |
| JsText.Trim | index.js:74 | `stdout.trim()`: drops the leading and trailing whitespace runs; `JsText.TrimMeetsDescription` states its meaning |
| JsText.TrimMeetsDescription | index.js:74 | the trimmed output is the input with a whitespace prefix and a whitespace suffix removed, and it neither starts nor ends with whitespace |
| JsText.TrimIdempotent | index.js:74 | trimming an already trimmed output changes nothing |
| JsText.Digits | index.js:77-79 | the decimal form of a natural number is a non-empty string of digits with no leading zero, and it starts with `0` exactly when the number is 0 |
| JsText.Decimal | index.js:77-79 | `input.toString()` for an integer with magnitude at most 2^53 is canonical: digits with no leading zero, behind a `-` exactly when the integer is negative, and never `-0`; `JsText.DecimalRoundTrip` and `JsText.DecimalUnique` are its partners |
| JsText.CanonicalDigitsUnique | index.js:77-79 | a canonical digit string is the decimal form of its own value |
| JsText.DecimalUnique | index.js:77-79 | `Decimal` is the only canonical text that reads back as the integer, so with `JsText.DecimalRoundTrip` it pins the text exactly; it is `toString`'s text for magnitudes up to 2^53 |
| JsText.DigitsRoundTrip | index.js:77-79 | reading back the digits of `n` gives `n` |
| JsText.NegativeRoundTrip | index.js:77-79 | `"-"` followed by the digits of `m` parses back to `-m` |
| JsText.NonNegativeRoundTrip | index.js:77-79 | the digits of `m` parse back to `m` |
| JsText.DecimalRoundTrip | index.js:77-79 | for every integer, `toString` followed by a decimal parse gives the integer back, so no numeric input is lost when it is sent to stdin |
| Preprocess.NextQuote | index.js:124 | finds the next double quote at or after a position, with no quote in between, or reports that there is none |
| Preprocess.NextQuoteIs | index.js:124 | a quote at `j` with no quote between `from` and `j` is the one found |
| Preprocess.EscapeNewLines | index.js:124 | the inner `replace(/\n/g, '\\n')` leaves no line feed in a matched span |
| Preprocess.EscapeNewLinesInDoubleQuotes | index.js:123-125 | the global replace as a left-to-right scan: at a quote whose span up to the next quote holds a line feed, that span is escaped and the scan resumes after it; otherwise one character is kept; its meaning is stated by `Preprocess.EscapeMask` and `Preprocess.EscapeOnlyQuotedNewLines` |
| Preprocess.EscapeMask | index.js:123-125 | builds, along the global-replace scan, the mask of the line feeds that are escaped; every marked character is a line feed inside a quoted span, and the result is the text with exactly the marked characters expanded |
| Preprocess.EscapeOnlyQuotedNewLines | index.js:123-125 | escaping changes only line feeds between a quote and the next quote, each into backslash-`n`; every other character is kept in order |
| Preprocess.EscapeWithoutQuotes | index.js:123-125 | code with no double quote is unchanged |
| Preprocess.EscapeWithoutNewLines | index.js:123-125 | code with no line feed is unchanged |
| Preprocess.EscapeQuotedSpan | index.js:124 | a quoted span holding a line feed is rewritten as a whole when the scan reaches its opening quote, and the scan resumes after its closing quote |
| Preprocess.RunEnd | index.js:132 | the end of the maximal run of characters of a class (`\s` or `\w`) starting at a position |
| Preprocess.PublicClassMatch | index.js:132 | a match at the start of the text covers exactly `public`, a maximal whitespace run, `class`, a maximal whitespace run and a maximal word, whose bounds are returned |
| Preprocess.PublicClassMatchIs | index.js:132 | the converse: that layout is recognised, with the greedy `\w+` running to the end of the word |
| Preprocess.RewritePublicClass | index.js:132 | the rewrite never makes the code longer |
| Preprocess.RewriteWithoutPublic | index.js:132 | code containing no `public` is unchanged |
| Preprocess.RewriteDeclaration | index.js:132 | `public <ws> class <ws> Name` becomes `class Name`, and the rewrite continues after the name |
| Preprocess.RewriteIntroducesOnlyKeyword | index.js:132 | every character of the rewritten code comes from the code or from the inserted `class ` |
| Preprocess.ClassDeclAt | index.js:138 | a `class\s+(\w+)` match captures a non-empty word |
| Preprocess.ClassDeclAtMeans | index.js:138 | a match at `i` covers `class`, a maximal whitespace run and a maximal word, and captures that word |
| Preprocess.ClassDeclAtIs | index.js:138 | the converse: `class`, a maximal whitespace run and a maximal word at `i` is a match capturing the word |
| Preprocess.FindClassDecl | index.js:138 | `match` finds the leftmost position where `class\s+(\w+)` matches, or reports that there is none |
| Preprocess.FindsFirstDeclaration | index.js:138 | the leftmost matching position is the one found |
| Preprocess.ProgramName | index.js:136-142 | non-Java code, and Java code with no `class <word>`, are named `tempfile` |
| Preprocess.ProgramNameIsFirstDeclaration | index.js:137-141 | Java code is named after the word of its leftmost `class <word>` |
| Preprocess.UniqueFileName | index.js:28-30 | `${baseName}_${uuid}${extension}`; `Preprocess.FileIdRoundTrip` is its inverse |
| Preprocess.FileIdRoundTrip | index.js:28-30 | the uuid can be recovered from the generated name, given the stem and the extension |
| Preprocess.UniqueFileNameInjective | index.js:28-30 | two names with the same stem and extension are equal exactly when their uuids are equal |
| Preprocess.PrepareRunCode | index.js:127-133 | `/run-code` escapes first, then rewrites `public class` for Java |
| Preprocess.PrepareSubmitCode | index.js:214-226 | `/submit-code` rewrites `public class` first for Java, then escapes |
| Preprocess.PreparationOrdersAgreeWithoutQuotes | index.js:214-226 | escaping then rewriting (`/run-code`) and rewriting then escaping (`/submit-code`) agree on code without a double quote |
| Toolchains.SelectToolchain | index.js:153-195 | exactly `.java`, `.py`, `.c` and `.cpp` are accepted, and anything else gets "Unsupported file type"; only Python has no compile stage and no output file; the commands name the source path, the program name and the output path |
| Toolchains.ReferenceSharesArtifacts | index.js:282-331 | for compiled languages the candidate's and the reference's jobs differ only in their compile command, and share the run command and the output file |
| Stages.StdinPayload | index.js:77-79 | a text input is written as it is; a numeric input is written as canonical decimal text that parses back to the number, which by `JsText.DecimalUnique` is exactly `toString`'s text for magnitudes up to 2^53 |
| Stages.HasCompileStage | index.js:55 | `if (compileCmd)`: a compile stage exists when the command is present and non-empty; `Stages.RunStageStartedIff` states what it decides |
| Stages.RunMessage | index.js:69-75 | the exec callback's argument once the run process has ended: `Execution error: ` and stderr, or the trimmed stdout |
| Stages.Run | index.js:68-87 | `run`: one launch with the input on stdin; a thrown stdin write is reported at once, and the exec callback's message follows when the process ends (never, for a process that hangs); its contracts are `Stages.DeliveriesPerInput` and `Stages.LastDeliveryReportsRun` |
| Stages.RunCommand | index.js:54-66 | handling one input always launches a process, and calls back at least once when every process it starts ends |
| Stages.CompileFailureShortCircuits | index.js:55-60 | a failed compile calls back once with `Compilation error: ` followed by the compiler's stderr, and no run process is ever launched |
| Stages.RunStageStartedIff | index.js:54-66 | the run process is launched exactly when the compile stage is absent or succeeded (it neither failed nor hung), and then the callbacks are those of `run` |
| Stages.DeliveriesPerInput | index.js:54-87 | one input calls back once after a failed compile, never after a hanging one; once the run starts, once for a thrown stdin write (reported first) plus once when the process ends |
| Stages.LastDeliveryReportsRun | index.js:69-75 | once the run stage starts and its process ends, the last callback reports how: `Execution error: ` followed by stderr, or the trimmed stdout |
| Stages.FailureIndistinguishableFromOutput | index.js:58 | a program that prints the compile-failure text is reported exactly like a failed compile |
| FanOut.Start | index.js:97-98 | the collector starts with one hole per input, a zero counter, and no completion |
| FanOut.Step | index.js:102-104 | one callback: store the value at its index, count it, and run the completion branch when the counter equals the array length; `FanOut.FiringCount` states when it fires |
| FanOut.Replay | index.js:100-104 | after any sequence of callbacks the slot count is unchanged, and the counter has grown by the number of callbacks |
| FanOut.FiringCount | index.js:103-104 | the completion branch runs once, on the callback that brings the counter to the array length, and never otherwise |
| FanOut.FiresOnceIff | index.js:100-110 | from a fresh collector, cleanup and the response are scheduled exactly once when there are inputs and at least that many callbacks, and never otherwise |
| FanOut.FiringSnapshot | index.js:102-108 | the completion branch sees the slots as the first `inputs.length` callbacks left them |
| FanOut.UntouchedSlot | index.js:102 | a slot that no callback targets keeps its value |
| FanOut.EarlyCompletion | index.js:101-108 | if input `i` is not among the first `inputs.length` callbacks, slot `i` is a hole when the completion branch runs |
| FanOut.ScheduledSlot | index.js:102 | after one callback per input in a given order, a slot holds its input's result exactly when that input called back |
| FanOut.CompletesOnceInAnyOrder | index.js:100-111 | in any order with one callback per input, the branch runs exactly once, after the last callback, and sees every slot holding its own input's result |
| FanOut.Collector.constructor | index.js:97-98 | the in-place collector starts in the state `Start(n)` |
| FanOut.Collector.Deliver | index.js:101-104 | a callback stores its value at its index, counts itself, reports whether it ran the completion branch, and moves the collector by one `Step` |
| FanOut.DeliverAll | index.js:100-111 | a sequence of callbacks moves the in-place collector exactly as `Replay` says |
| Cleanup.Targets | index.js:32-52 | cleanup considers the source path first, then the output path with `.class` and the bare output path when an output file is given |
| Cleanup.HasOutput | index.js:32-52 | `if (outputFile)`: the output paths are considered only when an output file is given and non-empty; `Cleanup.Targets` states what it decides |
| Cleanup.ExistingTargets | index.js:32-52 | the `existsSync` test before each `unlink`, in target order; `Cleanup.ExistingTargetsMembers` states its meaning and `Cleanup.CleanupFiles` unlinks exactly these |
| Cleanup.ExistingTargetsMembers | index.js:34-45 | a path is unlinked exactly when it is a target and exists |
| Cleanup.CleanupFiles | index.js:32-52 | afterwards the source file, `outputFile` and `outputFile.class` are gone, every other path is untouched, and `unlink` has been called on exactly the existing targets, in order |
| Cleanup.AllConsidered | index.js:42-50 | once every target has been considered, exactly the existing targets are gone |
| Cleanup.NothingToUnlink | index.js:34-45 | when no target exists, nothing is unlinked |
| Cleanup.CleanupIdempotent | index.js:32-52 | cleaning up again, on the files the first cleanup left, issues no `unlink` |
| Jobs.Collect | index.js:97-110 | the completion branch runs exactly when there are inputs and at least that many callbacks, and then hands on one slot per input |
| Jobs.CollectIsFiring | index.js:104-108 | what is handed on is exactly what the collector held when the completion branch ran |
| Jobs.Label | index.js:89-113 | each callback of input `i` becomes a record `{ input: inputs[i], output }` stored at slot `i`, one record per callback, in order |
| Jobs.CompileAndRun | index.js:89-113 | `compileAndRun` over an interleaving of the inputs' callbacks: each callback labelled with its input, collected, and on completion the disk after cleanup; its contracts are the `Jobs` lemmas below |
| Jobs.ProcessCode | index.js:254-271 | the collector of `processCode`, storing bare strings |
| Jobs.AtLeastOneArrivalEach | index.js:100-101 | when every input calls back at least once, there are at least as many callbacks as inputs |
| Jobs.OneArrivalEach | index.js:100-101 | when every input calls back exactly once, the interleaving visits each input exactly once |
| Jobs.FewerArrivalsThanInputs | index.js:100-104 | when no input calls back twice and one never calls back, fewer callbacks arrive than there are inputs |
| Jobs.CompletesIffInputs | index.js:97-110 | when every process ends, in every interleaving the job completes exactly when there is at least one input |
| Jobs.SlotsCarryTheirInput | index.js:102 | in every interleaving, each filled slot is labelled with its own input |
| Jobs.CompletesOnceWithEveryResult | index.js:89-113 | with inputs, every process ending and no stdin write throwing, in any interleaving, slot `i` holds `{ input: inputs[i], output }` with input `i`'s own result, and cleanup removes exactly the targets |
| Jobs.ProcessCodeCompletesWithEveryResult | index.js:254-271 | the same for the `processCode` collector, which stores bare strings |
| Jobs.HoleWhenCountedEarly | index.js:101-108 | when at least `inputs.length` callbacks arrive but input `i` is not among the first `inputs.length`, the job completes with slot `i` still a hole |
| Jobs.StdinErrorCanLeaveHole | index.js:81-86 | if the first input's stdin write throws and its two callbacks arrive first, the job completes with the last input's slot a hole |
| Jobs.HangNeverAnswered | index.js:54-75 | a compiler that never exits, or one input's program that never exits, leaves both `compileAndRun` and `processCode` pending in every interleaving, provided no stdin write throws: no reply, no cleanup |
| Grading.CompareOutputs | index.js:273-280 | one record per candidate slot; holes stay holes; each record carries the input, both outputs, and `match`, which holds exactly when the reference slot equals the candidate's output |
| Grading.AllMatchIff | index.js:273-280 | for result arrays of equal length, every record is present and matches exactly when the candidate has no holes and its results equal the reference results |
| Requests.RunCodeLayout | index.js:136-146 | `/run-code`'s program name comes from the prepared code; the source file sits in the directory with a name that reads back as that name, the extension and the uuid, and the output file is the directory joined to the program name |
| Requests.RunCode | index.js:115-200 | `/run-code`: 400 "Invalid input format" for empty code or extension, 500 "Error writing file" when the write fails, then the switch and the job; its contracts are the `Requests` lemmas below |
| Requests.RunCodeRunsJob | index.js:144-196 | with valid fields, a successful write and a supported extension, `/run-code` answers with its job's outcome, computed on the disk with the source file added |
| Requests.UnsupportedExtensionLeavesFile | index.js:148-195 | an unsupported extension is answered with 400 "Unsupported file type" after the source file has been written, and the file remains on disk |
| Requests.RunCodeAnswersEveryInput | index.js:115-200 | with inputs, a supported extension, every process ending and no stdin write throwing, `/run-code` answers with one record per input, in input order, and removes the source file, `outputFile` and `outputFile.class` |
| Requests.EmptyInputsNeverAnswered | index.js:120-122 | an empty `inputs` array passes validation, but gets no reply and leaves the source file on disk |
| Requests.HangingRunNeverAnswered | index.js:148-196 | a compiler or program that never exits, with no stdin write throwing, gets no reply and leaves the source file on disk |
| Requests.SubmitCodeLayout | index.js:228-242 | the program name comes from the candidate's prepared code and names both files; the reference's output file is the candidate's; each source file sits in the directory with its own extension and uuid |
| Requests.SubmitToolchains | index.js:282-335 | both jobs go through the switch on the candidate's extension; an unsupported one gets "Unsupported file type" |
| Requests.SubmitCode | index.js:203-341 | `/submit-code`: 500 when either write fails, then the switch and the `processCode` chain; its contracts are the `Requests` lemmas below |
| Requests.GradeJobs | index.js:289-293 | the candidate's job, then the reference job from its completion branch, then `compareOutputs` from the reference's |
| Requests.SubmitCodeGradesJobs | index.js:244-293 | with both files written and a supported extension, `/submit-code` answers with the `processCode` chain of the two jobs |
| Requests.GradesEveryInput | index.js:289-293 | with inputs, every process ending and no stdin write throwing, the chain answers with one record per input pairing both results, and all records match exactly when the two programs agree on every input |
| Requests.ReferenceWaitsForCandidate | index.js:289-292 | the reference job starts only from the candidate's completion branch: if the candidate's job never completes (no inputs, or a process that never exits while no stdin write throws), there is no reply, whatever the reference would do |
| Requests.HangingCandidateNeverAnswered | index.js:289-293 | a candidate compiler or program that never exits, with no stdin write throwing, means no reply, the reference never runs, and both source files stay on disk |
| Requests.SubmitGradesEveryInput | index.js:203-341 | end to end, `/submit-code` grades every input, and all records match exactly when the two programs agree |

## Left out

- HTTP plumbing is not modelled: Express routing, body parsing, `res.status(...).send` and `res.json` serialisation. Replies are values of `Requests.Reply`.
- The `try`/`catch` answering 400 with the thrown error is not modelled. Fields are typed, so a missing `correctCode` cannot throw from `replace`. `/submit-code`'s lack of field validation is therefore not visible.
- Real processes are abstracted by a `World` parameter: `exec`, shells, exit codes and stdout/stderr buffering. A process either succeeds, fails or never exits.
- Stages.RunCommand: the `World` is a function of the launch, so identical launches react identically. Every input's compile in a job is the same launch and gets the same outcome. In the source each input runs its own compile concurrently onto one output path (index.js:55-61, started once per input at index.js:100-101). Those compiles can race and end differently, and that race is not modelled.
- Compiler outputs other than `outputFile` and `outputFile.class` (further `.class` files from `javac`) are not in the model's filesystem, and the source leaves them on disk.
- The real filesystem is a set of paths. File contents are not tracked, and compiling does not add the output files to the set. Cleanup is modelled on whatever the set holds.
- The outcome of `fs.writeFile` is a boolean parameter.
- `unlink` errors are only logged by the source, and are not modelled.
- `uuidv4()` is a parameter (`id`). Uniqueness of the random identifiers is not modelled.
- `path.join` and `path.dirname` are modelled as `dir + "/" + name` and `dir`, without normalisation.
- Requests.GradeJobs: grades the candidate's slots as they were when its completion branch ran. `processCode` hands on the live `results` array (index.js:255-266), and `compareOutputs` reads it only after the reference job has completed plus 100 ms (index.js:289-291). A candidate callback that arrives in that window, such as the real result of an input whose slot was still a hole after another input's double callback, is graded by the source but not by the model. Candidate callbacks are not interleaved with the reference job.
- The 100 ms `setTimeout` is not modelled. The reply holds the slots at the moment the completion branch runs. A callback arriving during the delay would also show up in the real response; the model does not capture that.
- After completion the counter goes past `inputs.length` when late callbacks arrive. The model keeps counting but does not track any further effect.
- JsText.Decimal: writes every digit of the integer. An input is a JSON number, a double, and above 2^53 in magnitude `toString` prints the shortest digits that read back to the same double, padded with zeros (`18446744073709551616` is written as `18446744073709552000`). The text matches `toString` only for magnitudes up to 2^53; double rounding is not modelled.
- Stages.StdinPayload: for a number with magnitude above 2^53, the payload is the exact integer's digits, not the rounded digits `toString` writes (see `JsText.Decimal` above).
- Inputs are strings or integers only. `Number.prototype.toString` for non-integers, for exponent notation at or above 1e21, and for other JSON types (booleans, objects) is not modelled.
- JsText.TrimMeetsDescription: states that `trim` removes a whitespace prefix and suffix and leaves no boundary whitespace. That the two removed runs are maximal follows from `JsText.LeadingSpace` and `JsText.TrailingSpace`, and is not restated as a uniqueness lemma.
- Preprocess.RewritePublicClass: its own contract bounds only the length. Its effect is stated by `Preprocess.RewriteDeclaration`, `Preprocess.RewriteWithoutPublic` and `Preprocess.RewriteIntroducesOnlyKeyword`, not by one characterisation of every match.
- Preprocess.ProgramName: its contract covers the `tempfile` cases. The Java case is stated by `Preprocess.ProgramNameIsFirstDeclaration`.
- Jobs.CompletesOnceWithEveryResult: assumes that no stdin write throws and that every process ends. The case of a throwing write is covered by `Jobs.HoleWhenCountedEarly` and `Jobs.StdinErrorCanLeaveHole`. The case of a process that never exits is covered by `Jobs.HangNeverAnswered`. Neither is a full description of every such interleaving.
- Jobs.CompletesIffInputs: assumes every process ends. Without that assumption, completion also depends on how many callbacks arrive (`Jobs.Collect`). `Jobs.HangNeverAnswered` covers a hang with no throwing stdin write. A hang combined with a throwing write in another input, which may still complete, is stated only through `Jobs.Collect`.
- ReferenceWaitsForCandidate: the candidate's job stays pending when there are no inputs or when a process hangs and no stdin write throws (`Requests.HangingCandidateNeverAnswered`). Other hang combinations are not enumerated.
- Console logging (`console.error`) and the commented-out view rendering are not modelled.

=== FILE: cleanup.dfy ===
/**
 * `cleanupFiles(filePath, outputFile)`: delete the source file and, when an
 * output file is given, the output file with each of the extensions
 * `.class` and `` (none), skipping paths that do not exist. The filesystem
 * is the set of paths that exist. Every existence check runs before any
 * asynchronous `unlink` has completed, so each check sees the set as it was
 * when cleanup started.
 */
module Cleanup {
  import opened Wrappers

  const OutputExtensions: seq<string> := [".class", ""]

  /** `if (outputFile)`: an absent or empty output path means there are no output files. */
  predicate HasOutput(outputFile: Option<string>) {
    outputFile.Some? && outputFile.value != ""
  }

  /** The paths cleanup considers, in the order it considers them. */
  function Targets(filePath: string, outputFile: Option<string>): (ts: seq<string>)
    ensures ts != [] && ts[0] == filePath
  {
    [filePath] + if HasOutput(outputFile) then OutputPaths(outputFile.value) else []
  }

  /** `outputFile + ext` for each output extension, in order. */
  function OutputPaths(outputFile: string): (ps: seq<string>)
    ensures |ps| == |OutputExtensions|
    ensures forall j :: 0 <= j < |OutputExtensions| ==> ps[j] == outputFile + OutputExtensions[j]
  {
    seq(|OutputExtensions|, j requires 0 <= j < |OutputExtensions| => outputFile + OutputExtensions[j])
  }

  function ToSet(ts: seq<string>): set<string> {
    set t | t in ts
  }

  /** The targets, in order, that exist in `files`: the paths `unlink` is called on. */
  function ExistingTargets(files: set<string>, ts: seq<string>): seq<string>
    decreases |ts|
  {
    if ts == [] then []
    else
      var last := ts[|ts| - 1];
      ExistingTargets(files, ts[..|ts| - 1]) + if last in files then [last] else []
  }

  /** A path is unlinked exactly when it is a target and exists. */
  lemma {:induction false} ExistingTargetsMembers(files: set<string>, ts: seq<string>)
    ensures forall p :: p in ExistingTargets(files, ts) <==> p in files && p in ts
    decreases |ts|
  {
    if ts != [] {
      var last := ts[|ts| - 1];
      ExistingTargetsMembers(files, ts[..|ts| - 1]);
      assert ts == ts[..|ts| - 1] + [last];
    }
  }

  /** After considering the targets `ts`: the existing ones were unlinked, in order, and are gone. */
  ghost predicate Considered(files: set<string>, ts: seq<string>, remaining: set<string>, unlinked: seq<string>) {
    unlinked == ExistingTargets(files, ts) && remaining == files - ToSet(ts)
  }

  /** Considering the next target unlinks it exactly when it exists. */
  lemma ConsiderNext(files: set<string>, ts: seq<string>, n: nat, remaining: set<string>, unlinked: seq<string>)
    requires n < |ts| && Considered(files, ts[..n], remaining, unlinked)
    ensures var x := ts[n];
            Considered(files, ts[..n + 1], if x in files then remaining - {x} else remaining,
                       if x in files then unlinked + [x] else unlinked)
  {
    assert ts[..n + 1][..n] == ts[..n];
    assert ts[..n + 1] == ts[..n] + [ts[n]];
    assert ToSet(ts[..n + 1]) == ToSet(ts[..n]) + {ts[n]};
  }

  /** The paths whose `unlink` the method issues, and the set of paths that exist afterwards. */
  method CleanupFiles(files: set<string>, filePath: string, outputFile: Option<string>)
    returns (remaining: set<string>, unlinked: seq<string>)
    ensures filePath !in remaining
    ensures HasOutput(outputFile) ==>
      outputFile.value !in remaining && outputFile.value + ".class" !in remaining
    ensures forall p :: p in remaining <==> p in files && p !in Targets(filePath, outputFile)
    ensures unlinked == ExistingTargets(files, Targets(filePath, outputFile))
    ensures forall p :: p in unlinked ==> p in files
  {
    ghost var targets := Targets(filePath, outputFile);
    remaining, unlinked := files, [];
    ConsiderNext(files, targets, 0, remaining, unlinked);
    if filePath in files {
      remaining, unlinked := remaining - {filePath}, unlinked + [filePath];
    }
    if HasOutput(outputFile) {
      var base := outputFile.value;
      assert |targets| == |OutputExtensions| + 1;
      for k := 0 to |OutputExtensions|
        invariant Considered(files, targets[..k + 1], remaining, unlinked)
      {
        var fileToDelete := base + OutputExtensions[k];
        assert fileToDelete == targets[k + 1];
        ConsiderNext(files, targets, k + 1, remaining, unlinked);
        if fileToDelete in files {
          remaining, unlinked := remaining - {fileToDelete}, unlinked + [fileToDelete];
        }
      }
      assert targets[..|OutputExtensions| + 1] == targets;
    } else {
      assert targets[..1] == targets;
    }
    AllConsidered(files, filePath, outputFile, remaining, unlinked);
  }

  /** Once every target has been considered, exactly the existing targets are gone and nothing else is. */
  lemma AllConsidered(files: set<string>, filePath: string, outputFile: Option<string>,
                      remaining: set<string>, unlinked: seq<string>)
    requires Considered(files, Targets(filePath, outputFile), remaining, unlinked)
    ensures filePath !in remaining
    ensures HasOutput(outputFile) ==>
      outputFile.value !in remaining && outputFile.value + ".class" !in remaining
    ensures forall p :: p in remaining <==> p in files && p !in Targets(filePath, outputFile)
    ensures unlinked == ExistingTargets(files, Targets(filePath, outputFile))
    ensures forall p :: p in unlinked ==> p in files
  {
    var targets := Targets(filePath, outputFile);
    if HasOutput(outputFile) {
      assert targets[1] == outputFile.value + ".class";
      assert targets[2] == outputFile.value;
    }
    ExistingTargetsMembers(files, targets);
  }

  /** No target exists, so nothing is unlinked. */
  lemma {:induction false} NothingToUnlink(files: set<string>, ts: seq<string>)
    requires forall t :: t in ts ==> t !in files
    ensures ExistingTargets(files, ts) == []
    decreases |ts|
  {
    if ts != [] {
      NothingToUnlink(files, ts[..|ts| - 1]);
      assert ts[|ts| - 1] in ts;
    }
  }

  /**
   * Cleaning up again, on what the first cleanup left, finds nothing to
   * unlink: the second call issues no `unlink`.
   */
  lemma CleanupIdempotent(files: set<string>, filePath: string, outputFile: Option<string>)
    ensures var ts := Targets(filePath, outputFile);
            ExistingTargets(files - ToSet(ts), ts) == []
  {
    var ts := Targets(filePath, outputFile);
    NothingToUnlink(files - ToSet(ts), ts);
  }
}

=== FILE: fanout.dfy ===
/**
 * The result collector shared by `compileAndRun` and `processCode`: a
 * pre-sized `results` array written by input index and a `completed`
 * counter; the branch that schedules cleanup and the response runs when the
 * counter equals `inputs.length`.
 *
 * The callbacks' arrival order is arbitrary, so it is a parameter: a
 * sequence of deliveries. `Tally` and `Replay` describe the collector's
 * state after any such sequence; the `Collector` class is the in-place
 * version, proved to follow them.
 */
module FanOut {
  import opened Wrappers

  /** One callback invocation: the input index it was created for and the value it stores. */
  datatype Delivery<T> = Delivery(index: nat, value: T)

  /**
   * The collector's state: the result slots (`None` is an array hole), the
   * counter, and the slots as they stood each time the completion branch ran.
   */
  datatype Tally<T> = Tally(slots: seq<Option<T>>, completed: nat, firings: seq<seq<Option<T>>>)

  /** `new Array(inputs.length)` and `completed = 0`. */
  function Start<T>(n: nat): (t: Tally<T>)
    ensures |t.slots| == n && t.completed == 0 && t.firings == []
    ensures forall i :: 0 <= i < n ==> t.slots[i].None?
  {
    Tally(seq(n, _ => None), 0, [])
  }

  predicate InRange<T>(ds: seq<Delivery<T>>, n: nat) {
    forall k :: 0 <= k < |ds| ==> ds[k].index < n
  }

  /** One callback: store the value at its index, count it, and run the completion branch on equality. */
  function Step<T>(t: Tally<T>, d: Delivery<T>): Tally<T>
    requires d.index < |t.slots|
  {
    var slots := t.slots[d.index := Some(d.value)];
    var completed := t.completed + 1;
    Tally(slots, completed, if completed == |t.slots| then t.firings + [slots] else t.firings)
  }

  /** The state after the deliveries `ds`, in that order. */
  function Replay<T>(t: Tally<T>, ds: seq<Delivery<T>>): (r: Tally<T>)
    requires InRange(ds, |t.slots|)
    ensures |r.slots| == |t.slots| && r.completed == t.completed + |ds|
    decreases |ds|
  {
    if ds == [] then t else Step(Replay(t, ds[..|ds| - 1]), ds[|ds| - 1])
  }

  // ---------------------------------------------------------------------
  // When the completion branch runs
  // ---------------------------------------------------------------------

  /** The branch runs once for the delivery that brings the counter to the array length, never otherwise. */
  lemma {:induction false} FiringCount<T>(t: Tally<T>, ds: seq<Delivery<T>>)
    requires InRange(ds, |t.slots|)
    ensures |Replay(t, ds).firings|
         == |t.firings| + (if t.completed < |t.slots| <= t.completed + |ds| then 1 else 0)
    decreases |ds|
  {
    if ds != [] {
      FiringCount(t, ds[..|ds| - 1]);
    }
  }

  /**
   * Cleanup and the response are scheduled at most once, and exactly once
   * when there is at least one input and at least as many callbacks as
   * inputs; with no inputs they are never scheduled.
   */
  lemma FiresOnceIff<T>(n: nat, ds: seq<Delivery<T>>)
    requires InRange(ds, n)
    ensures |Replay(Start(n), ds).firings| == (if 0 < n <= |ds| then 1 else 0)
  {
    FiringCount(Start<T>(n), ds);
  }

  lemma {:induction false} ReplayAppend<T>(t: Tally<T>, a: seq<Delivery<T>>, b: seq<Delivery<T>>)
    requires InRange(a, |t.slots|) && InRange(b, |t.slots|)
    ensures InRange(a + b, |t.slots|)
    ensures Replay(t, a + b) == Replay(Replay(t, a), b)
    decreases |b|
  {
    if b == [] {
      assert a + b == a;
    } else {
      assert (a + b)[..|a + b| - 1] == a + b[..|b| - 1];
      ReplayAppend(t, a, b[..|b| - 1]);
    }
  }

  /** Once the counter has passed the array length, later callbacks never run the branch again. */
  lemma {:induction false} FiringsStable<T>(t: Tally<T>, ds: seq<Delivery<T>>)
    requires InRange(ds, |t.slots|) && t.completed >= |t.slots|
    ensures Replay(t, ds).firings == t.firings
    decreases |ds|
  {
    if ds != [] {
      FiringsStable(t, ds[..|ds| - 1]);
    }
  }

  /** The `n`-th callback runs the branch for the first time, on the slots it has just filled. */
  lemma FiresOnNth<T>(n: nat, head: seq<Delivery<T>>)
    requires InRange(head, n) && 0 < n == |head|
    ensures Replay(Start(n), head).firings == [Replay(Start(n), head).slots]
    ensures Replay(Start(n), head).completed == n
  {
    var front := head[..n - 1];
    FiringCount(Start<T>(n), front);
    var pre := Replay(Start<T>(n), front);
    assert pre.firings == [] && pre.completed == n - 1;
    assert Replay(Start<T>(n), head) == Step(pre, head[n - 1]);
  }

  /** The branch sees the slots exactly as the first `n` callbacks left them. */
  lemma FiringSnapshot<T>(n: nat, ds: seq<Delivery<T>>)
    requires InRange(ds, n) && 0 < n <= |ds|
    ensures Replay(Start(n), ds).firings == [Replay(Start(n), ds[..n]).slots]
  {
    var head, tail := ds[..n], ds[n..];
    assert ds == head + tail;
    FiresOnNth(n, head);
    ReplayAppend(Start<T>(n), head, tail);
    FiringsStable(Replay(Start<T>(n), head), tail);
  }

  /** A slot that no delivery targets keeps its value. */
  lemma {:induction false} UntouchedSlot<T>(t: Tally<T>, ds: seq<Delivery<T>>, i: nat)
    requires InRange(ds, |t.slots|) && i < |t.slots|
    requires forall k :: 0 <= k < |ds| ==> ds[k].index != i
    ensures Replay(t, ds).slots[i] == t.slots[i]
    decreases |ds|
  {
    if ds != [] {
      UntouchedSlot(t, ds[..|ds| - 1], i);
    }
  }

  /**
   * The branch fires on the `n`-th callback whatever it carries: an input
   * whose result is not among the first `n` callbacks is still a hole when
   * cleanup and the response are scheduled.
   */
  lemma EarlyCompletion<T>(n: nat, ds: seq<Delivery<T>>, i: nat)
    requires InRange(ds, n) && 0 < n <= |ds| && i < n
    requires forall k :: 0 <= k < n ==> ds[k].index != i
    ensures |Replay(Start(n), ds).firings| == 1 && |Replay(Start(n), ds).firings[0]| == n
    ensures Replay(Start(n), ds).firings[0][i].None?
  {
    FiringSnapshot(n, ds);
    UntouchedSlot(Start<T>(n), ds[..n], i);
  }

  // ---------------------------------------------------------------------
  // One callback per input, in any order
  // ---------------------------------------------------------------------

  /** An arrival order in which each of the `n` inputs calls back exactly once. */
  predicate IsArrivalOrder(order: seq<nat>, n: nat) {
    |order| == n
    && (forall k :: 0 <= k < |order| ==> order[k] < n)
    && (forall i :: 0 <= i < n ==> i in order)
  }

  /** The deliveries when input `order[k]` is the `k`-th to call back, with its own output. */
  function Schedule<T>(order: seq<nat>, outputs: seq<T>): (ds: seq<Delivery<T>>)
    requires forall k :: 0 <= k < |order| ==> order[k] < |outputs|
    ensures |ds| == |order| && InRange(ds, |outputs|)
    ensures forall k :: 0 <= k < |order| ==> ds[k] == Delivery(order[k], outputs[order[k]])
  {
    seq(|order|, k requires 0 <= k < |order| => Delivery(order[k], outputs[order[k]]))
  }

  /** Every slot holding its input's output. */
  function Filled<T>(outputs: seq<T>): (slots: seq<Option<T>>)
    ensures |slots| == |outputs| && forall i :: 0 <= i < |outputs| ==> slots[i] == Some(outputs[i])
  {
    seq(|outputs|, i requires 0 <= i < |outputs| => Some(outputs[i]))
  }

  lemma {:induction false} ScheduledSlot<T>(t: Tally<T>, order: seq<nat>, outputs: seq<T>, i: nat)
    requires |t.slots| == |outputs| && i < |outputs|
    requires forall k :: 0 <= k < |order| ==> order[k] < |outputs|
    ensures Replay(t, Schedule(order, outputs)).slots[i] == if i in order then Some(outputs[i]) else t.slots[i]
    decreases |order|
  {
    if order != [] {
      var prefix := order[..|order| - 1];
      assert Schedule(order, outputs)[..|order| - 1] == Schedule(prefix, outputs);
      ScheduledSlot(t, prefix, outputs, i);
      assert i in order <==> i in prefix || order[|order| - 1] == i by {
        assert order == prefix + [order[|order| - 1]];
      }
    }
  }

  /**
   * Whatever order the callbacks arrive in, when each input calls back once
   * the branch runs exactly once, after the last one, and sees slot `i`
   * holding input `i`'s output.
   */
  lemma CompletesOnceInAnyOrder<T>(order: seq<nat>, outputs: seq<T>)
    requires IsArrivalOrder(order, |outputs|) && |outputs| > 0
    ensures var t := Replay(Start(|outputs|), Schedule(order, outputs));
            t.slots == Filled(outputs) && t.firings == [Filled(outputs)]
  {
    var n := |outputs|;
    var ds := Schedule(order, outputs);
    var t := Replay(Start<T>(n), ds);
    forall i | 0 <= i < n ensures t.slots[i] == Some(outputs[i]) {
      ScheduledSlot(Start<T>(n), order, outputs, i);
    }
    FiringSnapshot(n, ds);
    assert ds[..n] == ds;
  }

  // ---------------------------------------------------------------------
  // The collector itself: an array filled by index and a counter
  // ---------------------------------------------------------------------

  class Collector<T> {
    /** `inputs.length`. */
    const expected: nat
    /** `results`, pre-sized; `None` is a hole. */
    const results: array<Option<T>>
    var completed: nat
    /** The slots as they stood each time the completion branch ran. */
    var firings: seq<seq<Option<T>>>

    ghost predicate Valid()
      reads this
    {
      results.Length == expected
    }

    /** The collector's state as a `Tally`. */
    function State(): Tally<T>
      reads this, results
    {
      Tally(results[..], completed, firings)
    }

    constructor (n: nat)
      ensures Valid() && fresh(results)
      ensures State() == Start(n)
    {
      expected := n;
      results := new Option<T>[n](_ => None);
      completed := 0;
      firings := [];
    }

    /** The callback of input `index`: returns whether it ran the completion branch. */
    method Deliver(index: nat, value: T) returns (fire: bool)
      requires Valid() && index < expected
      modifies this, results
      ensures Valid()
      ensures State() == Step(old(State()), Delivery(index, value))
      ensures fire <==> completed == expected
    {
      results[index] := Some(value);
      completed := completed + 1;
      fire := completed == expected;
      if fire {
        firings := firings + [results[..]];
      }
    }
  }

  /** Callbacks arriving in the order `ds`. */
  method DeliverAll<T>(c: Collector<T>, ds: seq<Delivery<T>>)
    requires c.Valid() && InRange(ds, c.expected)
    modifies c, c.results
    ensures c.Valid()
    ensures c.State() == Replay(old(c.State()), ds)
  {
    var k := 0;
    while k < |ds|
      invariant 0 <= k <= |ds| && c.Valid()
      invariant c.State() == Replay(old(c.State()), ds[..k])
    {
      var _ := c.Deliver(ds[k].index, ds[k].value);
      assert ds[..k + 1][..k] == ds[..k];
      k := k + 1;
    }
    assert ds[..k] == ds;
  }
}

=== FILE: grading.dfy ===
/**
 * `compareOutputs(userResults, correctResults)`: the candidate's result
 * array mapped index by index to a record pairing it with the reference
 * result for the same input. `Array.prototype.map` skips holes and keeps
 * them, so a hole in the candidate's results stays a hole (`null` in the
 * response); a hole in the reference results reads as `undefined`, which
 * equals no string.
 */
module Grading {
  import opened Wrappers
  import opened Stages

  /** `{ input, match, userOutput, correctOutput }`; `correctOutput` is `None` where the reference slot is a hole. */
  datatype Verdict = Verdict(input: Input, matches: bool, userOutput: string, correctOutput: Option<string>)

  /** `correctResults[index]`: the reference slot, or `undefined` past the end. */
  function SlotAt(results: seq<Option<string>>, index: nat): Option<string> {
    if index < |results| then results[index] else None
  }

  function CompareOutputs(inputs: seq<Input>, userResults: seq<Option<string>>, correctResults: seq<Option<string>>)
    : (r: seq<Option<Verdict>>)
    requires |userResults| <= |inputs|
    ensures |r| == |userResults|
    ensures forall i :: 0 <= i < |r| ==> (r[i].None? <==> userResults[i].None?)
    ensures forall i :: 0 <= i < |r| && r[i].Some? ==>
      var v := r[i].value;
      v.input == inputs[i] && v.userOutput == userResults[i].value && v.correctOutput == SlotAt(correctResults, i)
      && (v.matches <==> SlotAt(correctResults, i) == Some(userResults[i].value))
  {
    seq(|userResults|, i requires 0 <= i < |userResults| =>
      match userResults[i]
      case None => None
      case Some(u) => Some(Verdict(inputs[i], SlotAt(correctResults, i) == Some(u), u, SlotAt(correctResults, i))))
  }

  /** Every record is present and matches. */
  predicate AllMatch(verdicts: seq<Option<Verdict>>) {
    forall i :: 0 <= i < |verdicts| ==> verdicts[i].Some? && verdicts[i].value.matches
  }

  /**
   * For result arrays of one length, every record is present and matches
   * exactly when the candidate has no holes and its results equal the
   * reference results.
   */
  lemma AllMatchIff(inputs: seq<Input>, userResults: seq<Option<string>>, correctResults: seq<Option<string>>)
    requires |userResults| == |correctResults| <= |inputs|
    ensures AllMatch(CompareOutputs(inputs, userResults, correctResults))
        <==> (forall i :: 0 <= i < |userResults| ==> userResults[i].Some?) && userResults == correctResults
  {
    var r := CompareOutputs(inputs, userResults, correctResults);
    if AllMatch(r) {
      forall i | 0 <= i < |userResults| ensures userResults[i] == correctResults[i] {
        assert r[i].Some? && r[i].value.matches;
      }
    }
  }
}

=== FILE: jobs.dfy ===
/**
 * `compileAndRun` (and the collector inside `processCode`): every input
 * goes through `runCommand`, each callback stores its string in the input's
 * slot and counts itself, and the counter reaching `inputs.length`
 * schedules cleanup and the response.
 *
 * The callbacks of different inputs interleave arbitrarily; an interleaving
 * is given as `order`, the input index of each callback in arrival order.
 * The callbacks of one input keep their own order.
 */
module Jobs {
  import opened Wrappers
  import opened Stages
  import opened FanOut
  import opened Cleanup

  /** `{ input: input, output: result }`: what `compileAndRun` stores in a slot. */
  datatype Entry = Entry(input: Input, output: string)

  /**
   * How a job ends: the completion branch never runs (`Pending`; the
   * request gets no answer from it), or it runs, cleanup leaves `remaining`
   * on disk and the slots as they stand are handed on (`null` for a hole).
   */
  datatype Outcome<T> = Pending | Completed(slots: seq<Option<T>>, remaining: set<string>)

  /** The strings each input's callback receives, input by input. */
  function Traces(compileCmd: Option<string>, runCmd: string, inputs: seq<Input>, world: World): (traces: seq<seq<string>>)
    ensures |traces| == |inputs|
    ensures forall i :: 0 <= i < |inputs| ==> traces[i] == RunCommand(compileCmd, runCmd, inputs[i], world).delivered
  {
    seq(|inputs|, i requires 0 <= i < |inputs| => RunCommand(compileCmd, runCmd, inputs[i], world).delivered)
  }

  /** `order` interleaves the callbacks: input `i` occurs once per string its callback receives. */
  predicate IsInterleaving(order: seq<nat>, traces: seq<seq<string>>) {
    (forall k :: 0 <= k < |order| ==> order[k] < |traces|)
    && forall i :: 0 <= i < |traces| ==> multiset(order)[i] == |traces[i]|
  }

  /** The callbacks in arrival order: the `j`-th arrival of input `i` carries the `j`-th string of its trace. */
  function Arrivals(order: seq<nat>, traces: seq<seq<string>>): (ds: seq<Delivery<string>>)
    requires forall k :: 0 <= k < |order| ==> order[k] < |traces|
    requires forall i :: 0 <= i < |traces| ==> multiset(order)[i] <= |traces[i]|
    ensures |ds| == |order| && InRange(ds, |traces|)
    ensures forall k :: 0 <= k < |order| ==> ds[k].index == order[k]
    decreases |order|
  {
    if order == [] then []
    else
      var front, i := order[..|order| - 1], order[|order| - 1];
      assert order == front + [i];
      Arrivals(front, traces) + [Delivery(i, traces[i][multiset(front)[i]])]
  }

  /** `results[index] = { input, output: result }`: each callback's string, labelled with its input. */
  function Label(inputs: seq<Input>, ds: seq<Delivery<string>>): (r: seq<Delivery<Entry>>)
    requires InRange(ds, |inputs|)
    ensures |r| == |ds| && InRange(r, |inputs|)
    ensures forall k :: 0 <= k < |ds| ==> r[k] == Delivery(ds[k].index, Entry(inputs[ds[k].index], ds[k].value))
  {
    seq(|ds|, k requires 0 <= k < |ds| => Delivery(ds[k].index, Entry(inputs[ds[k].index], ds[k].value)))
  }

  /** The collector over `n` slots after the deliveries `ds`: the slots its completion branch saw, if it ran. */
  function Collect<T>(n: nat, ds: seq<Delivery<T>>): (r: Option<seq<Option<T>>>)
    requires InRange(ds, n)
    ensures r.Some? <==> 0 < n <= |ds|
    ensures r.Some? ==> |r.value| == n
  {
    if 0 < n <= |ds| then Some(Replay(Start(n), ds[..n]).slots) else None
  }

  /** `Collect` reports what the collector's completion branch sees, the one time it runs. */
  lemma CollectIsFiring<T>(n: nat, ds: seq<Delivery<T>>)
    requires InRange(ds, n)
    ensures var t := Replay(Start(n), ds);
            match Collect(n, ds)
            case None => t.firings == []
            case Some(slots) => t.firings == [slots]
  {
    FiresOnceIff(n, ds);
    if 0 < n <= |ds| {
      FiringSnapshot(n, ds);
    }
  }

  /** `compileAndRun(compileCmd, runCmd, inputs, res, filePath, outputFile)` with the files on disk `files`. */
  function CompileAndRun(compileCmd: Option<string>, runCmd: string, inputs: seq<Input>, filePath: string,
                         outputFile: Option<string>, world: World, order: seq<nat>, files: set<string>): Outcome<Entry>
    requires IsInterleaving(order, Traces(compileCmd, runCmd, inputs, world))
  {
    var ds := Label(inputs, Arrivals(order, Traces(compileCmd, runCmd, inputs, world)));
    match Collect(|inputs|, ds)
    case None => Pending
    case Some(slots) => Completed(slots, files - ToSet(Targets(filePath, outputFile)))
  }

  /** The collector of `processCode`: the same, storing the bare strings. */
  function ProcessCode(compileCmd: Option<string>, runCmd: string, inputs: seq<Input>, filePath: string,
                       outputFile: Option<string>, world: World, order: seq<nat>, files: set<string>): Outcome<string>
    requires IsInterleaving(order, Traces(compileCmd, runCmd, inputs, world))
  {
    var ds := Arrivals(order, Traces(compileCmd, runCmd, inputs, world));
    match Collect(|inputs|, ds)
    case None => Pending
    case Some(slots) => Completed(slots, files - ToSet(Targets(filePath, outputFile)))
  }

  // ---------------------------------------------------------------------
  // Counting arrivals
  // ---------------------------------------------------------------------

  function Indices(n: nat): (r: seq<nat>)
    ensures |r| == n && forall i :: 0 <= i < n ==> r[i] == i
  {
    seq(n, i requires 0 <= i < n => i)
  }

  lemma {:induction false} IndicesCount(n: nat, x: nat)
    ensures multiset(Indices(n))[x] == if x < n then 1 else 0
    decreases n
  {
    if n > 0 {
      assert Indices(n) == Indices(n - 1) + [n - 1];
      IndicesCount(n - 1, x);
    }
  }

  /** Every input's callback runs at least once, so there are at least as many arrivals as inputs. */
  lemma AtLeastOneArrivalEach(order: seq<nat>, traces: seq<seq<string>>)
    requires IsInterleaving(order, traces)
    requires forall i :: 0 <= i < |traces| ==> traces[i] != []
    ensures |order| >= |traces|
  {
    var n := |traces|;
    var m, all := multiset(order), multiset(Indices(n));
    forall x: nat ensures all[x] <= m[x] {
      IndicesCount(n, x);
    }
    assert m == all + (m - all);
  }

  /** With one string per input the arrivals are exactly the inputs, each once. */
  lemma OneArrivalEach(order: seq<nat>, traces: seq<seq<string>>)
    requires IsInterleaving(order, traces)
    requires forall i :: 0 <= i < |traces| ==> |traces[i]| == 1
    ensures IsArrivalOrder(order, |traces|)
    ensures forall k :: 0 <= k < |order| ==> order[k] !in order[..k]
  {
    var n := |traces|;
    var m, all := multiset(order), multiset(Indices(n));
    forall x: nat ensures m[x] == all[x] {
      IndicesCount(n, x);
      if x >= n {
        assert x !in order;
      }
    }
    assert m == all;
    assert |order| == |Indices(n)|;
    forall i | 0 <= i < n ensures i in order {
      assert m[i] == 1;
    }
    forall k | 0 <= k < |order| ensures order[k] !in order[..k] {
      assert order == order[..k] + [order[k]] + order[k + 1..];
      assert m[order[k]] == multiset(order[..k])[order[k]] + 1 + multiset(order[k + 1..])[order[k]];
    }
  }

  /** The first string of every trace. */
  function Heads(traces: seq<seq<string>>): (r: seq<string>)
    requires forall i :: 0 <= i < |traces| ==> traces[i] != []
    ensures |r| == |traces| && forall i :: 0 <= i < |traces| ==> r[i] == traces[i][0]
  {
    seq(|traces|, i requires 0 <= i < |traces| => traces[i][0])
  }

  /** When no input is seen twice, each arrival carries its input's first string. */
  lemma {:induction false} FirstArrivals(order: seq<nat>, traces: seq<seq<string>>)
    requires forall k :: 0 <= k < |order| ==> order[k] < |traces|
    requires forall i :: 0 <= i < |traces| ==> |traces[i]| == 1
    requires forall k :: 0 <= k < |order| ==> order[k] !in order[..k]
    ensures forall i :: 0 <= i < |traces| ==> multiset(order)[i] <= |traces[i]|
    ensures Arrivals(order, traces) == Schedule(order, Heads(traces))
    decreases |order|
  {
    if order == [] {
    } else {
      var front, i := order[..|order| - 1], order[|order| - 1];
      assert order == front + [i];
      forall k | 0 <= k < |front| ensures front[k] !in front[..k] {
        assert front[..k] == order[..k];
      }
      FirstArrivals(front, traces);
      assert i !in front by {
        assert front == order[..|order| - 1];
      }
      assert multiset(front)[i] == 0;
      assert Schedule(order, Heads(traces)) == Schedule(front, Heads(traces)) + [Delivery(i, Heads(traces)[i])];
    }
  }

  /**
   * When no input calls back more than once and one input never calls
   * back, fewer callbacks arrive than there are inputs.
   */
  lemma FewerArrivalsThanInputs(order: seq<nat>, traces: seq<seq<string>>, silent: nat)
    requires IsInterleaving(order, traces)
    requires forall i :: 0 <= i < |traces| ==> |traces[i]| <= 1
    requires silent < |traces| && traces[silent] == []
    ensures |order| < |traces|
  {
    var n := |traces|;
    var m, others := multiset(order), multiset(Indices(n)) - multiset{silent};
    forall x: nat ensures m[x] <= others[x] {
      IndicesCount(n, x);
      if x >= n {
        assert x !in order;
      }
    }
    IndicesCount(n, silent);
    assert |others| == n - 1;
    assert others == m + (others - m);
  }

  // ---------------------------------------------------------------------
  // What compileAndRun promises
  // ---------------------------------------------------------------------

  /**
   * When every process started ends, then whatever the interleaving the
   * completion branch runs exactly when there is at least one input: an
   * empty `inputs` array leaves the request without an answer.
   */
  lemma CompletesIffInputs(compileCmd: Option<string>, runCmd: string, inputs: seq<Input>, filePath: string,
                           outputFile: Option<string>, world: World, order: seq<nat>, files: set<string>)
    requires IsInterleaving(order, Traces(compileCmd, runCmd, inputs, world))
    requires forall i :: 0 <= i < |inputs| ==> Exits(compileCmd, runCmd, inputs[i], world)
    ensures CompileAndRun(compileCmd, runCmd, inputs, filePath, outputFile, world, order, files).Completed?
        <==> |inputs| > 0
  {
    AtLeastOneArrivalEach(order, Traces(compileCmd, runCmd, inputs, world));
  }

  /** Whatever the interleaving, slot `i`, once filled, is labelled with `inputs[i]`, and there is one slot per input. */
  lemma SlotsCarryTheirInput(compileCmd: Option<string>, runCmd: string, inputs: seq<Input>, filePath: string,
                             outputFile: Option<string>, world: World, order: seq<nat>, files: set<string>)
    requires IsInterleaving(order, Traces(compileCmd, runCmd, inputs, world))
    ensures var o := CompileAndRun(compileCmd, runCmd, inputs, filePath, outputFile, world, order, files);
            o.Completed? ==>
              |o.slots| == |inputs|
              && forall i :: 0 <= i < |inputs| && o.slots[i].Some? ==> o.slots[i].value.input == inputs[i]
  {
    var traces := Traces(compileCmd, runCmd, inputs, world);
    var ds := Label(inputs, Arrivals(order, traces));
    if 0 < |inputs| <= |ds| {
      forall i | 0 <= i < |inputs| && Replay(Start<Entry>(|inputs|), ds[..|inputs|]).slots[i].Some?
        ensures Replay(Start<Entry>(|inputs|), ds[..|inputs|]).slots[i].value.input == inputs[i]
      {
        LabelledSlot(inputs, Start<Entry>(|inputs|), ds[..|inputs|], i);
      }
    }
  }

  /** Replaying labelled deliveries never puts another input's label in a slot. */
  lemma {:induction false} LabelledSlot(inputs: seq<Input>, t: Tally<Entry>, ds: seq<Delivery<Entry>>, i: nat)
    requires |t.slots| == |inputs| && InRange(ds, |inputs|) && i < |inputs|
    requires t.slots[i].Some? ==> t.slots[i].value.input == inputs[i]
    requires forall k :: 0 <= k < |ds| ==> ds[k].value.input == inputs[ds[k].index]
    ensures Replay(t, ds).slots[i].Some? ==> Replay(t, ds).slots[i].value.input == inputs[i]
    decreases |ds|
  {
    if ds != [] {
      LabelledSlot(inputs, t, ds[..|ds| - 1], i);
    }
  }

  /**
   * When no stdin write throws, each input calls back once; whatever the
   * interleaving, the completion branch then runs once with slot `i`
   * holding `inputs[i]` and its own result, and cleanup has removed exactly
   * the targets.
   */
  lemma CompletesOnceWithEveryResult(compileCmd: Option<string>, runCmd: string, inputs: seq<Input>, filePath: string,
                                     outputFile: Option<string>, world: World, order: seq<nat>, files: set<string>)
    requires IsInterleaving(order, Traces(compileCmd, runCmd, inputs, world))
    requires forall i :: 0 <= i < |inputs| ==> world(RunLaunch(runCmd, inputs[i])).stdinError.None?
    requires forall i :: 0 <= i < |inputs| ==> Exits(compileCmd, runCmd, inputs[i], world)
    requires |inputs| > 0
    ensures var o := CompileAndRun(compileCmd, runCmd, inputs, filePath, outputFile, world, order, files);
            o.Completed?
            && o.remaining == files - ToSet(Targets(filePath, outputFile))
            && |o.slots| == |inputs|
            && forall i :: 0 <= i < |inputs| ==>
                 o.slots[i] == Some(Entry(inputs[i], RunCommand(compileCmd, runCmd, inputs[i], world).delivered[0]))
  {
    var n := |inputs|;
    var traces := Traces(compileCmd, runCmd, inputs, world);
    forall i | 0 <= i < n ensures |traces[i]| == 1 {
      DeliveriesPerInput(compileCmd, runCmd, inputs[i], world);
    }
    OneArrivalEach(order, traces);
    FirstArrivals(order, traces);
    var entries := seq(n, i requires 0 <= i < n => Entry(inputs[i], traces[i][0]));
    var ds := Label(inputs, Arrivals(order, traces));
    assert ds == Schedule(order, entries);
    CompletesOnceInAnyOrder(order, entries);
    assert ds[..n] == ds;
  }

  /** The same for the collector of `processCode`, whose slots hold the bare results. */
  lemma ProcessCodeCompletesWithEveryResult(compileCmd: Option<string>, runCmd: string, inputs: seq<Input>, filePath: string,
                                            outputFile: Option<string>, world: World, order: seq<nat>, files: set<string>)
    requires IsInterleaving(order, Traces(compileCmd, runCmd, inputs, world))
    requires forall i :: 0 <= i < |inputs| ==> world(RunLaunch(runCmd, inputs[i])).stdinError.None?
    requires forall i :: 0 <= i < |inputs| ==> Exits(compileCmd, runCmd, inputs[i], world)
    requires |inputs| > 0
    ensures var o := ProcessCode(compileCmd, runCmd, inputs, filePath, outputFile, world, order, files);
            o.Completed?
            && o.remaining == files - ToSet(Targets(filePath, outputFile))
            && |o.slots| == |inputs|
            && forall i :: 0 <= i < |inputs| ==>
                 o.slots[i] == Some(RunCommand(compileCmd, runCmd, inputs[i], world).delivered[0])
  {
    var n := |inputs|;
    var traces := Traces(compileCmd, runCmd, inputs, world);
    forall i | 0 <= i < n ensures |traces[i]| == 1 {
      DeliveriesPerInput(compileCmd, runCmd, inputs[i], world);
    }
    OneArrivalEach(order, traces);
    FirstArrivals(order, traces);
    var ds := Arrivals(order, traces);
    CompletesOnceInAnyOrder(order, Heads(traces));
    assert ds[..n] == ds;
  }

  /**
   * The hazard of the doubled callback: when at least `inputs.length`
   * callbacks arrive but input `i`'s is not among the first
   * `inputs.length` of them (another input's stdin write threw and that
   * input called back twice), the completion branch runs anyway and slot
   * `i` is still a hole.
   */
  lemma HoleWhenCountedEarly(compileCmd: Option<string>, runCmd: string, inputs: seq<Input>, filePath: string,
                             outputFile: Option<string>, world: World, order: seq<nat>, files: set<string>, i: nat)
    requires IsInterleaving(order, Traces(compileCmd, runCmd, inputs, world))
    requires i < |inputs| <= |order|
    requires forall k :: 0 <= k < |inputs| ==> order[k] != i
    ensures var o := CompileAndRun(compileCmd, runCmd, inputs, filePath, outputFile, world, order, files);
            o.Completed? && |o.slots| == |inputs| && o.slots[i] == None
  {
    var n := |inputs|;
    var traces := Traces(compileCmd, runCmd, inputs, world);
    var ds := Label(inputs, Arrivals(order, traces));
    UntouchedSlot(Start<Entry>(n), ds[..n], i);
  }

  /**
   * The hazard occurs: when the first input's stdin write throws, it calls
   * back twice, and if both of its callbacks arrive first, the counter
   * reaches `inputs.length` before the last input has called back.
   */
  lemma StdinErrorCanLeaveHole(compileCmd: Option<string>, runCmd: string, inputs: seq<Input>, filePath: string,
                               outputFile: Option<string>, world: World, files: set<string>)
    requires |inputs| >= 2
    requires RunStageStarts(compileCmd, world)
    requires forall i :: 0 <= i < |inputs| ==> !world(RunLaunch(runCmd, inputs[i])).exit.Hang?
    requires world(RunLaunch(runCmd, inputs[0])).stdinError.Some?
    requires forall i :: 1 <= i < |inputs| ==> world(RunLaunch(runCmd, inputs[i])).stdinError.None?
    ensures IsInterleaving([0] + Indices(|inputs|), Traces(compileCmd, runCmd, inputs, world))
    ensures var o := CompileAndRun(compileCmd, runCmd, inputs, filePath, outputFile, world, [0] + Indices(|inputs|), files);
            o.Completed? && |o.slots| == |inputs| && o.slots[|inputs| - 1] == None
  {
    var n := |inputs|;
    var order := [0] + Indices(n);
    var traces := Traces(compileCmd, runCmd, inputs, world);
    forall i | 0 <= i < n ensures multiset(order)[i] == |traces[i]| {
      IndicesCount(n, i);
      DeliveriesPerInput(compileCmd, runCmd, inputs[i], world);
    }
    HoleWhenCountedEarly(compileCmd, runCmd, inputs, filePath, outputFile, world, order, files, n - 1);
  }

  /**
   * A program that never exits: when the compiler never ends, or input
   * `silent`'s run starts and never ends, and no stdin write throws, the
   * completion branch never runs, whatever the interleaving. There is no
   * answer and no cleanup.
   */
  lemma HangNeverAnswered(compileCmd: Option<string>, runCmd: string, inputs: seq<Input>, filePath: string,
                          outputFile: Option<string>, world: World, order: seq<nat>, files: set<string>, silent: nat)
    requires IsInterleaving(order, Traces(compileCmd, runCmd, inputs, world))
    requires silent < |inputs|
    requires CompileHangs(compileCmd, world)
          || (RunStageStarts(compileCmd, world) && world(RunLaunch(runCmd, inputs[silent])).exit.Hang?)
    requires forall i :: 0 <= i < |inputs| ==> world(RunLaunch(runCmd, inputs[i])).stdinError.None?
    ensures CompileAndRun(compileCmd, runCmd, inputs, filePath, outputFile, world, order, files).Pending?
    ensures ProcessCode(compileCmd, runCmd, inputs, filePath, outputFile, world, order, files).Pending?
  {
    var traces := Traces(compileCmd, runCmd, inputs, world);
    forall i | 0 <= i < |inputs| ensures |traces[i]| <= 1 {
      DeliveriesPerInput(compileCmd, runCmd, inputs[i], world);
    }
    DeliveriesPerInput(compileCmd, runCmd, inputs[silent], world);
    FewerArrivalsThanInputs(order, traces, silent);
  }
}

=== FILE: jstext.dfy ===
/**
 * The pieces of JavaScript's string semantics that the server relies on:
 * the `\s` and `\w` regular-expression classes, `String.prototype.trim`
 * and the decimal form that `Number.prototype.toString` gives an integer.
 */
module JsText {
  import opened Wrappers

  /** JavaScript's `\s`: WhiteSpace and LineTerminator code points. `trim` removes the same set. */
  predicate IsSpace(c: char) {
    c == '\t' || c == '\n' || c == '\U{B}' || c == '\U{C}' || c == '\r' || c == ' '
    || c == '\U{A0}' || c == '\U{1680}' || ('\U{2000}' <= c <= '\U{200A}')
    || c == '\U{2028}' || c == '\U{2029}' || c == '\U{202F}' || c == '\U{205F}'
    || c == '\U{3000}' || c == '\U{FEFF}'
  }

  /** JavaScript's `\w`: `[A-Za-z0-9_]`. */
  predicate IsWordChar(c: char) {
    ('a' <= c <= 'z') || ('A' <= c <= 'Z') || ('0' <= c <= '9') || c == '_'
  }

  predicate AllSpace(s: string) {
    forall k :: 0 <= k < |s| ==> IsSpace(s[k])
  }

  predicate StartsWith(s: string, prefix: string) {
    |prefix| <= |s| && s[..|prefix|] == prefix
  }

  // ---------------------------------------------------------------------
  // String.prototype.trim
  // ---------------------------------------------------------------------

  /** Number of leading whitespace characters of `s`. */
  function LeadingSpace(s: string): (n: nat)
    ensures n <= |s| && AllSpace(s[..n])
    ensures n < |s| ==> !IsSpace(s[n])
  {
    if s == [] || !IsSpace(s[0]) then 0
    else
      var n := 1 + LeadingSpace(s[1..]);
      assert s[..n] == [s[0]] + s[1..][..n - 1];
      n
  }

  /** Number of trailing whitespace characters of `s`. */
  function TrailingSpace(s: string): (n: nat)
    ensures n <= |s| && AllSpace(s[|s| - n..])
    ensures n < |s| ==> !IsSpace(s[|s| - n - 1])
  {
    if s == [] || !IsSpace(s[|s| - 1]) then 0
    else
      var p := s[..|s| - 1];
      var m := TrailingSpace(p);
      assert s[|s| - (m + 1)..] == p[|p| - m..] + [s[|s| - 1]];
      AllSpaceSnoc(p[|p| - m..], s[|s| - 1]);
      assert m + 1 < |s| ==> s[|s| - m - 2] == p[|p| - m - 1];
      m + 1
  }

  lemma AllSpaceSnoc(s: string, c: char)
    requires AllSpace(s) && IsSpace(c)
    ensures AllSpace(s + [c])
  {
  }

  /** `s.trim()`: the string without its leading and trailing whitespace. */
  function Trim(s: string): string {
    var i := LeadingSpace(s);
    var t := s[i..];
    t[..|t| - TrailingSpace(t)]
  }

  /**
   * An independent description of a trimmed string: it is the slice `s[i..j]`
   * of the input whose outside is all whitespace, and it neither starts nor
   * ends with whitespace.
   */
  predicate IsTrimOf(s: string, r: string) {
    exists i, j :: 0 <= i <= j <= |s| && r == s[i..j]
      && AllSpace(s[..i]) && AllSpace(s[j..])
      && (r != [] ==> !IsSpace(r[0]) && !IsSpace(r[|r| - 1]))
  }

  lemma TrimMeetsDescription(s: string)
    ensures IsTrimOf(s, Trim(s))
  {
    var i := LeadingSpace(s);
    var t := s[i..];
    var j := i + |t| - TrailingSpace(t);
    assert Trim(s) == s[i..j];
    assert s[j..] == t[|t| - TrailingSpace(t)..];
    var r := Trim(s);
    if r != [] {
      assert r[0] == s[i];
      assert r[|r| - 1] == t[|t| - TrailingSpace(t) - 1];
    }
  }

  /** Trimming a trimmed string changes nothing. */
  lemma TrimIdempotent(s: string)
    ensures Trim(Trim(s)) == Trim(s)
  {
    var r := Trim(s);
    TrimMeetsDescription(s);
    assert r[0..] == r;
    if r != [] {
      assert LeadingSpace(r) == 0;
    }
  }

  // ---------------------------------------------------------------------
  // Number.prototype.toString for integers, and its inverse
  // ---------------------------------------------------------------------

  function DigitChar(d: nat): (c: char)
    requires d < 10
    ensures '0' <= c <= '9'
  {
    ['0', '1', '2', '3', '4', '5', '6', '7', '8', '9'][d]
  }

  predicate IsDigit(c: char) {
    '0' <= c <= '9'
  }

  predicate AllDigits(s: string) {
    forall k :: 0 <= k < |s| ==> IsDigit(s[k])
  }

  function DigitValue(c: char): (d: nat)
    requires IsDigit(c)
    ensures d < 10 && DigitChar(d) == c
  {
    (c as int - '0' as int) as nat
  }

  /** A non-empty digit string whose only possible leading zero is the string "0" itself. */
  predicate CanonicalDigits(s: string) {
    s != [] && AllDigits(s) && (s[0] == '0' ==> s == "0")
  }

  /** The text `toString` gives an integer: canonical digits, or `-` before canonical digits other than "0". */
  predicate CanonicalDecimal(s: string) {
    CanonicalDigits(s) || (|s| >= 2 && s[0] == '-' && CanonicalDigits(s[1..]) && s[1] != '0')
  }

  /** Decimal digits of a natural number, most significant first, without leading zeros. */
  function Digits(n: nat): (s: string)
    ensures CanonicalDigits(s)
    ensures s[0] == '0' <==> n == 0
    decreases n
  {
    if n < 10 then [DigitChar(n)] else Digits(n / 10) + [DigitChar(n % 10)]
  }

  /** `n.toString()` for an integral number `n`. */
  function Decimal(n: int): (r: string)
    ensures CanonicalDecimal(r)
    ensures (r[0] == '-') == (n < 0)
  {
    if n < 0 then "-" + Digits(-n) else Digits(n)
  }

  /** The value of a string of decimal digits (`0` for the empty string). */
  function DigitsValue(s: string): nat
    requires AllDigits(s)
  {
    if s == [] then 0 else 10 * DigitsValue(s[..|s| - 1]) + DigitValue(s[|s| - 1])
  }

  /** Reads an optionally signed decimal integer; anything else is `None`. */
  function ParseDecimal(s: string): Option<int> {
    if s != [] && s[0] == '-' then
      var t := s[1..];
      if t != [] && AllDigits(t) then Some(0 - DigitsValue(t)) else None
    else if s != [] && AllDigits(s) then Some(DigitsValue(s))
    else None
  }

  lemma {:induction false} DigitsRoundTrip(n: nat)
    ensures DigitsValue(Digits(n)) == n
    decreases n
  {
    if n >= 10 {
      DigitsRoundTrip(n / 10);
      var s := Digits(n);
      assert s[..|s| - 1] == Digits(n / 10);
      assert DigitValue(s[|s| - 1]) == n % 10;
    }
  }

  /** The decimal form written to a process's standard input reads back as the number. */
  lemma DecimalRoundTrip(n: int)
    ensures ParseDecimal(Decimal(n)) == Some(n)
  {
    if n < 0 {
      var m: nat := -n;
      NegativeRoundTrip(m);
      assert Decimal(n) == "-" + Digits(m);
    } else {
      var m: nat := n;
      NonNegativeRoundTrip(m);
      assert Decimal(n) == Digits(m);
    }
  }

  /** Canonical digits are the digits of their own value: no other spelling of a number is canonical. */
  lemma {:induction false} CanonicalDigitsUnique(s: string)
    requires CanonicalDigits(s)
    ensures s == Digits(DigitsValue(s))
    decreases |s|
  {
    if |s| > 1 {
      var p := s[..|s| - 1];
      var d := DigitValue(s[|s| - 1]);
      assert CanonicalDigits(p) by { assert p[0] == s[0]; }
      CanonicalDigitsUnique(p);
      var v := DigitsValue(p);
      assert v != 0 by { assert p[0] == s[0] != '0'; }
      var n := DigitsValue(s);
      assert n == 10 * v + d;
      assert n / 10 == v && n % 10 == d;
      assert s == p + [s[|s| - 1]];
    }
  }

  /**
   * `toString` is the only canonical spelling of an integer: any canonical decimal
   * text that reads back as `n` is `Decimal(n)`.
   */
  lemma DecimalUnique(s: string, n: int)
    requires CanonicalDecimal(s) && ParseDecimal(s) == Some(n)
    ensures s == Decimal(n)
  {
    if s[0] == '-' {
      var t := s[1..];
      CanonicalDigitsUnique(t);
      assert DigitsValue(t) != 0 by { assert t[0] == s[1] != '0'; }
      assert s == "-" + t;
    } else {
      CanonicalDigitsUnique(s);
    }
  }

  lemma NegativeRoundTrip(m: nat)
    ensures ParseDecimal("-" + Digits(m)) == Some(0 - m)
  {
    var d := Digits(m);
    DigitsRoundTrip(m);
    assert ("-" + d)[1..] == d;
  }

  lemma NonNegativeRoundTrip(m: nat)
    ensures ParseDecimal(Digits(m)) == Some(m as int)
  {
    var d := Digits(m);
    DigitsRoundTrip(m);
    assert d[0] != '-' by { assert IsDigit(d[0]); }
  }
}

=== FILE: preprocess.dfy ===
/**
 * Source pre-processing done by the two request handlers before a program is
 * written to disk: escaping raw newlines inside double-quoted spans, turning
 * `public class X` into `class X` for Java, choosing the program name, and
 * naming the temporary source file.
 */
module Preprocess {
  import opened Wrappers
  import opened JsText

  // ---------------------------------------------------------------------
  // text.replace(/"[^"]*?\n[^"]*?"/g, m => m.replace(/\n/g, '\\n'))
  // ---------------------------------------------------------------------

  /** Position of the first `"` at or after `from`. */
  function NextQuote(s: string, from: nat): (r: Option<nat>)
    requires from <= |s|
    ensures r.Some? ==> from <= r.value < |s| && s[r.value] == '"' && '"' !in s[from..r.value]
    ensures r.None? ==> '"' !in s[from..]
    decreases |s| - from
  {
    if from == |s| then None
    else if s[from] == '"' then Some(from)
    else
      var r := NextQuote(s, from + 1);
      assert r.Some? ==> s[from..r.value] == [s[from]] + s[from + 1..r.value];
      assert s[from..] == [s[from]] + s[from + 1..];
      r
  }

  /** A quote with no quote before it (from `from` on) is the one `NextQuote` finds. */
  lemma {:induction false} NextQuoteIs(s: string, from: nat, j: nat)
    requires from <= j < |s| && s[j] == '"' && '"' !in s[from..j]
    ensures NextQuote(s, from) == Some(j)
    decreases j - from
  {
    if from < j {
      assert s[from] == s[from..j][0];
      assert s[from + 1..j] == s[from..j][1..];
      NextQuoteIs(s, from + 1, j);
    }
  }

  /** `match.replace(/\n/g, '\\n')`: every line feed becomes a backslash followed by `n`. */
  function EscapeNewLines(span: string): (r: string)
    ensures '\n' !in r
  {
    if span == [] then []
    else (if span[0] == '\n' then "\\n" else [span[0]]) + EscapeNewLines(span[1..])
  }

  /**
   * The regular expression can only match from a `"` to the very next `"`
   * (`[^"]` never crosses a quote), and only when a line feed lies between
   * them. A global replace therefore scans left to right: at a quote that
   * opens such a span it rewrites the span and resumes after the closing
   * quote; anywhere else it keeps one character and tries the next position.
   */
  function EscapeNewLinesInDoubleQuotes(text: string): string
    decreases |text|
  {
    if text == [] then []
    else
      var close := if text[0] == '"' then NextQuote(text, 1) else None;
      if close.Some? && '\n' in text[1..close.value] then
        var j := close.value;
        "\"" + EscapeNewLines(text[1..j]) + "\"" + EscapeNewLinesInDoubleQuotes(text[j + 1..])
      else
        [text[0]] + EscapeNewLinesInDoubleQuotes(text[1..])
  }

  /** `s` with each position whose `mask` bit is set replaced by backslash-`n`. */
  function Expand(s: string, mask: seq<bool>): (r: string)
    requires |mask| == |s|
  {
    if s == [] then [] else (if mask[0] then "\\n" else [s[0]]) + Expand(s[1..], mask[1..])
  }

  /** Position `k` lies between some `"` before it and some `"` after it. */
  predicate InQuotes(text: string, k: nat)
    requires k < |text|
  {
    '"' in text[..k] && '"' in text[k + 1..]
  }

  /** A mask that marks only line feeds lying between two quotes. */
  predicate QuotedNewLineMask(text: string, mask: seq<bool>) {
    |mask| == |text| &&
    forall k :: 0 <= k < |text| && mask[k] ==> text[k] == '\n' && InQuotes(text, k)
  }

  function NewLineMask(span: string): (m: seq<bool>)
    ensures |m| == |span| && forall k :: 0 <= k < |span| ==> m[k] == (span[k] == '\n')
  {
    seq(|span|, k requires 0 <= k < |span| => span[k] == '\n')
  }

  lemma {:induction false} ExpandAppend(a: string, ma: seq<bool>, b: string, mb: seq<bool>)
    requires |ma| == |a| && |mb| == |b|
    ensures Expand(a + b, ma + mb) == Expand(a, ma) + Expand(b, mb)
    decreases |a|
  {
    if a == [] {
      assert a + b == b && ma + mb == mb;
    } else {
      assert (a + b)[0] == a[0] && (ma + mb)[0] == ma[0];
      assert (a + b)[1..] == a[1..] + b;
      assert (ma + mb)[1..] == ma[1..] + mb;
      ExpandAppend(a[1..], ma[1..], b, mb);
    }
  }

  lemma {:induction false} EscapeNewLinesIsExpand(span: string)
    ensures EscapeNewLines(span) == Expand(span, NewLineMask(span))
    decreases |span|
  {
    if span != [] {
      EscapeNewLinesIsExpand(span[1..]);
      assert NewLineMask(span)[1..] == NewLineMask(span[1..]);
    }
  }

  lemma InQuotesShift(text: string, d: nat, k: nat)
    requires d + k < |text| && InQuotes(text[d..], k)
    ensures InQuotes(text, d + k)
  {
    var t := text[d..];
    var p :| 0 <= p < |t[..k]| && t[..k][p] == '"';
    assert text[..d + k][d + p] == '"';
    var q :| 0 <= q < |t[k + 1..]| && t[k + 1..][q] == '"';
    assert text[d + k + 1..][q] == '"';
  }

  /** The mask for a quoted span `"mid"` followed by the rest of the text. */
  lemma SpanMaskValid(text: string, j: nat, rest: seq<bool>)
    requires 0 < j < |text| && text[0] == '"' && text[j] == '"'
    requires QuotedNewLineMask(text[j + 1..], rest)
    ensures QuotedNewLineMask(text, [false] + NewLineMask(text[1..j]) + [false] + rest)
  {
    var mask := [false] + NewLineMask(text[1..j]) + [false] + rest;
    forall k | 0 <= k < |text| && mask[k]
      ensures text[k] == '\n' && InQuotes(text, k)
    {
      if k < j {
        assert text[..k][0] == '"';
        assert text[k + 1..][j - k - 1] == '"';
      } else {
        InQuotesShift(text, j + 1, k - j - 1);
      }
    }
  }

  lemma ShiftMaskValid(text: string, rest: seq<bool>)
    requires text != [] && QuotedNewLineMask(text[1..], rest)
    ensures QuotedNewLineMask(text, [false] + rest)
  {
    forall k | 0 < k < |text| && ([false] + rest)[k]
      ensures text[k] == '\n' && InQuotes(text, k)
    {
      InQuotesShift(text, 1, k - 1);
    }
  }

  /** Expanding a span between two unmarked characters escapes exactly its line feeds. */
  lemma SpanAsExpand(q1: char, mid: string, q2: char, rest: string, m: seq<bool>)
    requires |m| == |rest|
    ensures [q1] + EscapeNewLines(mid) + [q2] + Expand(rest, m)
         == Expand([q1] + mid + [q2] + rest, [false] + NewLineMask(mid) + [false] + m)
  {
    var nm := NewLineMask(mid);
    var s1, m1 := [q1] + mid, [false] + nm;
    var s2, m2 := s1 + [q2], m1 + [false];
    UnmarkedChar(q1);
    UnmarkedChar(q2);
    EscapeNewLinesIsExpand(mid);
    ExpandAppend([q1], [false], mid, nm);
    assert Expand(s1, m1) == [q1] + EscapeNewLines(mid);
    ExpandAppend(s1, m1, [q2], [false]);
    assert Expand(s2, m2) == [q1] + EscapeNewLines(mid) + [q2];
    ExpandAppend(s2, m2, rest, m);
  }

  lemma UnmarkedChar(c: char)
    ensures Expand([c], [false]) == [c]
  {
    assert [c][1..] == [];
  }

  /** The span case of the scan: `"mid"` is rewritten and the rest is scanned. */
  lemma SpanExpand(text: string, j: nat, m: seq<bool>)
    requires 0 < j < |text| && text[0] == '"' && text[j] == '"'
    requires |m| == |text[j + 1..]|
    requires EscapeNewLinesInDoubleQuotes(text[j + 1..]) == Expand(text[j + 1..], m)
    ensures "\"" + EscapeNewLines(text[1..j]) + "\"" + EscapeNewLinesInDoubleQuotes(text[j + 1..])
         == Expand(text, [false] + NewLineMask(text[1..j]) + [false] + m)
  {
    var mid, rest := text[1..j], text[j + 1..];
    assert text == [text[0]] + mid + [text[j]] + rest;
    SpanAsExpand(text[0], mid, text[j], rest, m);
  }

  /**
   * Escaping changes only line feeds that lie between a quote and the next
   * quote, each into backslash-`n`; every other character keeps its value
   * and its relative order.
   */
  lemma EscapeOnlyQuotedNewLines(text: string)
    ensures exists mask :: QuotedNewLineMask(text, mask)
                        && EscapeNewLinesInDoubleQuotes(text) == Expand(text, mask)
  {
    var mask := EscapeMask(text);
  }

  /** The mask of the line feeds the scan escapes, built along the scan. */
  lemma {:induction false} EscapeMask(text: string) returns (mask: seq<bool>)
    ensures QuotedNewLineMask(text, mask) && EscapeNewLinesInDoubleQuotes(text) == Expand(text, mask)
    decreases |text|
  {
    if text == [] {
      mask := [];
    } else {
      var close := if text[0] == '"' then NextQuote(text, 1) else None;
      if close.Some? && '\n' in text[1..close.value] {
        var j := close.value;
        var m := EscapeMask(text[j + 1..]);
        SpanMaskValid(text, j, m);
        SpanExpand(text, j, m);
        mask := [false] + NewLineMask(text[1..j]) + [false] + m;
      } else {
        var m := EscapeMask(text[1..]);
        ShiftMaskValid(text, m);
        assert ([false] + m)[1..] == m;
        mask := [false] + m;
      }
    }
  }

  /** Code with no double quote at all is returned unchanged. */
  lemma {:induction false} EscapeWithoutQuotes(text: string)
    requires '"' !in text
    ensures EscapeNewLinesInDoubleQuotes(text) == text
    decreases |text|
  {
    if text != [] {
      assert text[0] in text;
      EscapeWithoutQuotes(text[1..]);
    }
  }

  /** Code with no line feed is returned unchanged. */
  lemma {:induction false} EscapeWithoutNewLines(text: string)
    requires '\n' !in text
    ensures EscapeNewLinesInDoubleQuotes(text) == text
    decreases |text|
  {
    if text != [] {
      var close := if text[0] == '"' then NextQuote(text, 1) else None;
      if close.Some? {
        assert '\n' !in text[1..close.value];
      }
      assert '\n' !in text[1..];
      EscapeWithoutNewLines(text[1..]);
    }
  }

  /** A quoted span that holds a line feed is always rewritten when the scan reaches its opening quote. */
  lemma EscapeQuotedSpan(mid: string, rest: string)
    requires '"' !in mid && '\n' in mid
    ensures EscapeNewLinesInDoubleQuotes("\"" + mid + "\"" + rest)
         == "\"" + EscapeNewLines(mid) + "\"" + EscapeNewLinesInDoubleQuotes(rest)
  {
    var text := "\"" + mid + "\"" + rest;
    var j := |mid| + 1;
    assert text[1..j] == mid;
    assert text[j] == '"';
    assert text[j + 1..] == rest;
    NextQuoteIs(text, 1, j);
  }

  // ---------------------------------------------------------------------
  // Runs of `\s` and `\w` characters
  // ---------------------------------------------------------------------

  /** End of the longest run of characters satisfying `p` that starts at `i`. */
  function RunEnd(s: string, i: nat, p: char -> bool): (e: nat)
    requires i <= |s|
    ensures i <= e <= |s|
    ensures forall k :: i <= k < e ==> p(s[k])
    ensures e < |s| ==> !p(s[e])
    decreases |s| - i
  {
    if i == |s| || !p(s[i]) then i else RunEnd(s, i + 1, p)
  }

  /** Any run that ends at a character failing `p` (or at the end) is the longest one. */
  lemma {:induction false} RunEndIs(s: string, i: nat, e: nat, p: char -> bool)
    requires i <= e <= |s|
    requires forall k :: i <= k < e ==> p(s[k])
    requires e < |s| ==> !p(s[e])
    ensures RunEnd(s, i, p) == e
    decreases e - i
  {
    if i < e {
      RunEndIs(s, i + 1, e, p);
    }
  }

  // ---------------------------------------------------------------------
  // code.replace(/public\s+class\s+(\w+)/g, "class $1")
  // ---------------------------------------------------------------------

  /**
   * A match of `public\s+class\s+(\w+)` at the start of `s`, given as the
   * bounds of the captured name. Each `\s+` and the `\w+` take their
   * longest run: a shorter whitespace run is followed by whitespace, which
   * neither `class` nor `\w` accepts, and nothing follows the name.
   */
  function PublicClassMatch(s: string): (r: Option<(nat, nat)>)
    ensures r.Some? ==> 6 <= |s| && PublicClassLayout(s, RunEnd(s, 6, IsSpace), r.value.0, r.value.1)
  {
    if !StartsWith(s, "public") then None
    else
      var b := RunEnd(s, 6, IsSpace);
      if b == 6 || !StartsWith(s[b..], "class") then None
      else
        var c := RunEnd(s, b + 5, IsSpace);
        if c == b + 5 then None
        else
          var e := RunEnd(s, c, IsWordChar);
          if e == c then None else Some((c, e))
  }

  /** The global replace: each match becomes `class` and the name, scanning resumes after the name. */
  function RewritePublicClass(s: string): (r: string)
    ensures |r| <= |s|
    decreases |s|
  {
    if s == [] then []
    else
      match PublicClassMatch(s)
      case Some((c, e)) => "class " + s[c..e] + RewritePublicClass(s[e..])
      case None => [s[0]] + RewritePublicClass(s[1..])
  }

  predicate AllWord(s: string) {
    forall k :: 0 <= k < |s| ==> IsWordChar(s[k])
  }

  /** Code in which `public` never occurs is not changed by the rewrite. */
  lemma {:induction false} RewriteWithoutPublic(s: string)
    requires forall i :: 0 <= i < |s| ==> !StartsWith(s[i..], "public")
    ensures RewritePublicClass(s) == s
    decreases |s|
  {
    if s != [] {
      assert !StartsWith(s[0..], "public");
      assert s[0..] == s;
      forall i | 0 <= i < |s| - 1 ensures !StartsWith(s[1..][i..], "public") {
        assert s[1..][i..] == s[i + 1..];
      }
      RewriteWithoutPublic(s[1..]);
    }
  }

  /**
   * `s` reads `public`, whitespace up to `b`, `class`, whitespace up to `c`
   * and the name `s[c..e]`, each run as long as it can be: the text a match
   * of `public\s+class\s+(\w+)` at the start of `s` covers.
   */
  predicate PublicClassLayout(s: string, b: nat, c: nat, e: nat) {
    6 < b && b + 5 < c < e <= |s|
    && StartsWith(s, "public") && StartsWith(s[b..], "class")
    && (forall k :: 6 <= k < b ==> IsSpace(s[k]))
    && (forall k :: b + 5 <= k < c ==> IsSpace(s[k]))
    && (forall k :: c <= k < e ==> IsWordChar(s[k]))
    && !IsSpace(s[b]) && !IsSpace(s[c]) && (e < |s| ==> !IsWordChar(s[e]))
  }

  /** The converse: the layout is recognised, with the name's bounds. */
  lemma PublicClassMatchIs(s: string, b: nat, c: nat, e: nat)
    requires PublicClassLayout(s, b, c, e)
    ensures PublicClassMatch(s) == Some((c, e))
  {
    RunEndIs(s, 6, b, IsSpace);
    RunEndIs(s, b + 5, c, IsSpace);
    RunEndIs(s, c, e, IsWordChar);
  }

  /** Where the parts of a declaration `public <ws> class <ws> Name` followed by `rest` lie. */
  lemma DeclarationLayout(ws1: string, ws2: string, name: string, rest: string)
    requires ws1 != [] && AllSpace(ws1) && ws2 != [] && AllSpace(ws2)
    requires name != [] && AllWord(name)
    requires rest == [] || !IsWordChar(rest[0])
    ensures var s := "public" + ws1 + "class" + ws2 + name + rest;
            var b := 6 + |ws1|;
            var c := b + 5 + |ws2|;
            var e := c + |name|;
            PublicClassLayout(s, b, c, e) && s[c..e] == name && s[e..] == rest
  {
    var s := "public" + ws1 + "class" + ws2 + name + rest;
    var b := 6 + |ws1|;
    var c := b + 5 + |ws2|;
    var e := c + |name|;
    assert s[..6] == "public";
    assert s[b..][..5] == "class";
    assert s[b] == 'c';
    assert s[c] == name[0];
    assert e < |s| ==> s[e] == rest[0];
    assert forall k :: 6 <= k < b ==> s[k] == ws1[k - 6];
    assert forall k :: b + 5 <= k < c ==> s[k] == ws2[k - b - 5];
    assert forall k :: c <= k < e ==> s[k] == name[k - c];
    assert s[c..e] == name;
    assert s[e..] == rest;
  }

  /**
   * A declaration `public <ws> class <ws> Name` followed by a non-word
   * character (or the end) becomes `class Name`, and the rewrite carries on
   * after the name.
   */
  lemma RewriteDeclaration(ws1: string, ws2: string, name: string, rest: string)
    requires ws1 != [] && AllSpace(ws1) && ws2 != [] && AllSpace(ws2)
    requires name != [] && AllWord(name)
    requires rest == [] || !IsWordChar(rest[0])
    ensures RewritePublicClass("public" + ws1 + "class" + ws2 + name + rest)
         == "class " + name + RewritePublicClass(rest)
  {
    var s := "public" + ws1 + "class" + ws2 + name + rest;
    var c := 6 + |ws1| + 5 + |ws2|;
    DeclarationLayout(ws1, ws2, name, rest);
    PublicClassMatchIs(s, 6 + |ws1|, c, c + |name|);
  }

  // ---------------------------------------------------------------------
  // code.match(/class\s+(\w+)/) and the program name
  // ---------------------------------------------------------------------

  /**
   * `code` reads `class` at `i`, whitespace up to `b` and the word
   * `code[b..e]`, each run as long as it can be: the text a match of
   * `class\s+(\w+)` at `i` covers.
   */
  predicate ClassDeclLayout(code: string, i: nat, b: nat, e: nat) {
    i + 5 < b < e <= |code|
    && StartsWith(code[i..], "class")
    && (forall k :: i + 5 <= k < b ==> IsSpace(code[k]))
    && (forall k :: b <= k < e ==> IsWordChar(code[k]))
    && !IsSpace(code[b]) && (e < |code| ==> !IsWordChar(code[e]))
  }

  /** The name captured by `class\s+(\w+)` when a match starts at position `i`. */
  function ClassDeclAt(code: string, i: nat): (r: Option<string>)
    requires i <= |code|
    ensures r.Some? ==> r.value != [] && AllWord(r.value)
  {
    if !StartsWith(code[i..], "class") then None
    else
      var b := RunEnd(code, i + 5, IsSpace);
      if b == i + 5 then None
      else
        var e := RunEnd(code, b, IsWordChar);
        if e == b then None else Some(code[b..e])
  }

  /** A match at `i` covers a `class <word>` layout and captures the word. */
  lemma ClassDeclAtMeans(code: string, i: nat) returns (b: nat, e: nat)
    requires i <= |code| && ClassDeclAt(code, i).Some?
    ensures ClassDeclLayout(code, i, b, e) && ClassDeclAt(code, i) == Some(code[b..e])
  {
    b := RunEnd(code, i + 5, IsSpace);
    e := RunEnd(code, b, IsWordChar);
  }

  /** The converse: a `class <word>` layout at `i` is a match capturing the word. */
  lemma ClassDeclAtIs(code: string, i: nat, b: nat, e: nat)
    requires ClassDeclLayout(code, i, b, e)
    ensures ClassDeclAt(code, i) == Some(code[b..e])
  {
    RunEndIs(code, i + 5, b, IsSpace);
    RunEndIs(code, b, e, IsWordChar);
  }

  /** The leftmost position, from `from` on, where `class\s+(\w+)` matches. */
  function FindClassDecl(code: string, from: nat): (r: Option<nat>)
    requires from <= |code|
    ensures r.Some? ==> from <= r.value <= |code| && ClassDeclAt(code, r.value).Some?
    ensures r.Some? ==> forall j :: from <= j < r.value ==> ClassDeclAt(code, j).None?
    ensures r.None? ==> forall j :: from <= j <= |code| ==> ClassDeclAt(code, j).None?
    decreases |code| - from
  {
    if ClassDeclAt(code, from).Some? then Some(from)
    else if from == |code| then None
    else FindClassDecl(code, from + 1)
  }

  const DefaultProgramName: string := "tempfile"

  /**
   * The name used for the source file stem and the run command: the first
   * name declared with `class` when the extension is `.java`, otherwise
   * `tempfile`.
   */
  function ProgramName(fileExtension: string, code: string): (r: string)
    ensures fileExtension != ".java" ==> r == DefaultProgramName
    ensures (forall i :: 0 <= i <= |code| ==> ClassDeclAt(code, i).None?) ==> r == DefaultProgramName
  {
    if fileExtension == ".java" then
      match FindClassDecl(code, 0)
      case Some(i) => ClassDeclAt(code, i).value
      case None => DefaultProgramName
    else DefaultProgramName
  }

  /** The search finds the leftmost match and no other. */
  lemma FindsFirstDeclaration(code: string, i: nat)
    requires i <= |code| && ClassDeclAt(code, i).Some?
    requires forall j :: 0 <= j < i ==> ClassDeclAt(code, j).None?
    ensures FindClassDecl(code, 0) == Some(i)
  {
    var r := FindClassDecl(code, 0);
    assert r.Some? by {
      assert ClassDeclAt(code, i).Some?;
    }
  }

  /** For Java code with a `class <word>` match, the program name is the word of the leftmost match. */
  lemma ProgramNameIsFirstDeclaration(code: string, i: nat)
    requires i <= |code| && ClassDeclAt(code, i).Some?
    requires forall j :: 0 <= j < i ==> ClassDeclAt(code, j).None?
    ensures ProgramName(".java", code) == ClassDeclAt(code, i).value
  {
    FindsFirstDeclaration(code, i);
  }

  // ---------------------------------------------------------------------
  // generateUniqueFileName, with the random identifier as a parameter
  // ---------------------------------------------------------------------

  function UniqueFileName(baseName: string, extension: string, id: string): string {
    baseName + "_" + id + extension
  }

  /** Recovers the identifier from a name built by `UniqueFileName` with this stem and extension. */
  function FileId(fileName: string, baseName: string, extension: string): Option<string> {
    var n := |baseName| + 1;
    if |fileName| >= n + |extension|
       && fileName[..n] == baseName + "_"
       && fileName[|fileName| - |extension|..] == extension
    then Some(fileName[n..|fileName| - |extension|])
    else None
  }

  lemma FileIdRoundTrip(baseName: string, extension: string, id: string)
    ensures FileId(UniqueFileName(baseName, extension, id), baseName, extension) == Some(id)
  {
    var f := UniqueFileName(baseName, extension, id);
    assert f[..|baseName| + 1] == baseName + "_";
    assert f[|f| - |extension|..] == extension;
    assert f[|baseName| + 1..|f| - |extension|] == id;
  }

  /** Two requests with the same stem and extension get the same file name only with the same identifier. */
  lemma UniqueFileNameInjective(baseName: string, extension: string, id1: string, id2: string)
    ensures UniqueFileName(baseName, extension, id1) == UniqueFileName(baseName, extension, id2) <==> id1 == id2
  {
    FileIdRoundTrip(baseName, extension, id1);
    FileIdRoundTrip(baseName, extension, id2);
  }

  // ---------------------------------------------------------------------
  // The two handlers' pre-processing orders
  // ---------------------------------------------------------------------

  /** `/run-code` escapes first, then (for Java) rewrites `public class`. */
  function PrepareRunCode(code: string, fileExtension: string): string {
    var escaped := EscapeNewLinesInDoubleQuotes(code);
    if fileExtension == ".java" then RewritePublicClass(escaped) else escaped
  }

  /** `/submit-code` rewrites `public class` first (for Java), then escapes. */
  function PrepareSubmitCode(code: string, fileExtension: string): string {
    var rewritten := if fileExtension == ".java" then RewritePublicClass(code) else code;
    EscapeNewLinesInDoubleQuotes(rewritten)
  }

  /** Every character of the rewritten code comes from the code or from the inserted `class `. */
  lemma {:induction false} RewriteIntroducesOnlyKeyword(s: string)
    ensures forall x :: x in RewritePublicClass(s) ==> x in s || x in "class "
    decreases |s|
  {
    if s != [] {
      match PublicClassMatch(s)
      case Some((c, e)) =>
        RewriteIntroducesOnlyKeyword(s[e..]);
        SliceChars(s, c, e);
        SliceChars(s, e, |s|);
        assert s[e..|s|] == s[e..];
      case None =>
        RewriteIntroducesOnlyKeyword(s[1..]);
        SliceChars(s, 1, |s|);
        assert s[1..|s|] == s[1..];
    }
  }

  lemma SliceChars(s: string, i: nat, j: nat)
    requires i <= j <= |s|
    ensures forall x :: x in s[i..j] ==> x in s
  {
    forall x | x in s[i..j] ensures x in s {
      var k :| 0 <= k < j - i && s[i..j][k] == x;
      assert s[i + k] == x;
    }
  }

  /**
   * The two handlers apply the Java rewrite and the escaping in opposite
   * orders; for code without a double quote the order makes no difference.
   */
  lemma PreparationOrdersAgreeWithoutQuotes(code: string, fileExtension: string)
    requires '"' !in code
    ensures PrepareRunCode(code, fileExtension) == PrepareSubmitCode(code, fileExtension)
  {
    EscapeWithoutQuotes(code);
    if fileExtension == ".java" {
      var r := RewritePublicClass(code);
      RewriteIntroducesOnlyKeyword(code);
      assert '"' !in r by {
        forall k | 0 <= k < |r| ensures r[k] != '"' {
          assert r[k] in code || r[k] in "class ";
        }
      }
      EscapeWithoutQuotes(r);
    }
  }
}

=== FILE: requests.dfy ===
/**
 * The two handlers as sequences of the steps above: prepare the code,
 * derive the program name and paths, write the source file, pick the
 * toolchain, run the inputs, clean up, answer.
 *
 * `path.join(__dirname, name)` is the concatenation `dir + "/" + name` and
 * `path.dirname` of such a path is `dir`. Whether `fs.writeFile` fails is a
 * parameter. The set of files is the state of the disk; the source code
 * written is not tracked.
 */
module Requests {
  import opened Wrappers
  import opened Stages
  import opened Preprocess
  import opened Toolchains
  import opened Cleanup
  import opened Jobs
  import opened Grading

  /** What the client receives: a status with a text body, a JSON array, or nothing at all. */
  datatype Reply<T> = Rejected(status: nat, message: string) | Json(body: seq<Option<T>>) | NoReply

  const InvalidInputFormat: string := "Invalid input format"
  const ErrorWritingFile: string := "Error writing file"
  const ErrorWritingCorrectFile: string := "Error writing correct code file"

  function JoinPath(dir: string, name: string): string {
    dir + "/" + name
  }

  /** The source path and output path derived for a program name. */
  datatype Layout = Layout(programName: string, filePath: string, outputFile: string)

  /**
   * `l` places a program in `dir`: the source file is `dir/<name>` where the
   * name reads back as this program name, extension and identifier, and the
   * output file is `dir/<programName>`.
   */
  predicate PlacedIn(l: Layout, fileExtension: string, dir: string, id: string) {
    |l.filePath| > |dir|
    && l.filePath == JoinPath(dir, l.filePath[|dir| + 1..])
    && FileId(l.filePath[|dir| + 1..], l.programName, fileExtension) == Some(id)
    && l.outputFile == JoinPath(dir, l.programName)
  }

  function MakeLayout(programName: string, fileExtension: string, dir: string, id: string): (l: Layout)
    ensures l.programName == programName && PlacedIn(l, fileExtension, dir, id)
  {
    var name := UniqueFileName(programName, fileExtension, id);
    FileIdRoundTrip(programName, fileExtension, id);
    assert JoinPath(dir, name)[|dir| + 1..] == name;
    Layout(programName, JoinPath(dir, name), JoinPath(dir, programName))
  }

  /** `/run-code`'s paths: the program name is taken from the code after both rewrites. */
  function RunCodeLayout(code: string, fileExtension: string, dir: string, id: string): (l: Layout)
    ensures l.programName == ProgramName(fileExtension, PrepareRunCode(code, fileExtension))
    ensures PlacedIn(l, fileExtension, dir, id)
  {
    MakeLayout(ProgramName(fileExtension, PrepareRunCode(code, fileExtension)), fileExtension, dir, id)
  }

  function RunCodeToolchain(code: string, fileExtension: string, dir: string, id: string): Result<Toolchain, string> {
    var l := RunCodeLayout(code, fileExtension, dir, id);
    SelectToolchain(fileExtension, l.filePath, dir, l.programName, l.outputFile)
  }

  /** The interleaving `order` fits the job `/run-code` would start. */
  predicate RunCodeOrderFits(code: string, fileExtension: string, inputs: seq<Input>, dir: string, id: string,
                             world: World, order: seq<nat>) {
    var tc := RunCodeToolchain(code, fileExtension, dir, id);
    tc.Ok? ==> IsInterleaving(order, Traces(tc.value.compile, tc.value.run, inputs, world))
  }

  /**
   * `POST /run-code`: validate, prepare, write the source file, then switch
   * on the extension. The reply and the files on disk once it is settled.
   */
  function RunCode(code: string, fileExtension: string, inputs: seq<Input>, dir: string, id: string,
                   writeOk: bool, world: World, order: seq<nat>, files: set<string>): (Reply<Entry>, set<string>)
    requires RunCodeOrderFits(code, fileExtension, inputs, dir, id, world, order)
  {
    if code == "" || fileExtension == "" then (Rejected(400, InvalidInputFormat), files)
    else if !writeOk then (Rejected(500, ErrorWritingFile), files)
    else
      var l := RunCodeLayout(code, fileExtension, dir, id);
      var written := files + {l.filePath};
      match RunCodeToolchain(code, fileExtension, dir, id)
      case Err(message) => (Rejected(400, message), written)
      case Ok(tc) => Settle(CompileAndRun(tc.compile, tc.run, inputs, l.filePath, tc.outputFile, world, order, written), written)
  }

  /** The reply once the job is settled: its slots when it completed, none otherwise. */
  function Settle<T>(outcome: Outcome<T>, written: set<string>): (Reply<T>, set<string>) {
    match outcome
    case Pending => (NoReply, written)
    case Completed(slots, remaining) => (Json(slots), remaining)
  }

  /** With valid fields, a successful write and a supported extension, `/run-code` answers with its job's outcome. */
  lemma RunCodeRunsJob(code: string, fileExtension: string, inputs: seq<Input>, dir: string, id: string,
                       world: World, order: seq<nat>, files: set<string>)
    requires code != "" && fileExtension in SupportedExtensions
    requires RunCodeOrderFits(code, fileExtension, inputs, dir, id, world, order)
    ensures var l := RunCodeLayout(code, fileExtension, dir, id);
            var tc := RunCodeToolchain(code, fileExtension, dir, id).value;
            RunCode(code, fileExtension, inputs, dir, id, true, world, order, files)
            == Settle(CompileAndRun(tc.compile, tc.run, inputs, l.filePath, tc.outputFile, world, order, files + {l.filePath}),
                      files + {l.filePath})
  {
  }

  /**
   * An unsupported extension is rejected only after the source file has
   * been written, and nothing removes it.
   */
  lemma UnsupportedExtensionLeavesFile(code: string, fileExtension: string, inputs: seq<Input>, dir: string, id: string,
                                       world: World, order: seq<nat>, files: set<string>)
    requires code != "" && fileExtension != "" && fileExtension !in SupportedExtensions
    ensures RunCodeOrderFits(code, fileExtension, inputs, dir, id, world, order)
    ensures var (reply, after) := RunCode(code, fileExtension, inputs, dir, id, true, world, order, files);
            reply == Rejected(400, UnsupportedFileType)
            && after == files + {RunCodeLayout(code, fileExtension, dir, id).filePath}
  {
  }

  /**
   * With a supported extension, at least one input, no stdin write
   * throwing and every process ending, the reply carries one entry per input, in input order, each
   * with that input's result, and the source file, `outputFile` and
   * `outputFile.class` are gone afterwards.
   */
  lemma RunCodeAnswersEveryInput(code: string, fileExtension: string, inputs: seq<Input>, dir: string, id: string,
                                 world: World, order: seq<nat>, files: set<string>)
    requires code != "" && fileExtension in SupportedExtensions && |inputs| > 0
    requires RunCodeOrderFits(code, fileExtension, inputs, dir, id, world, order)
    requires forall i :: 0 <= i < |inputs| ==>
      world(RunLaunch(RunCodeToolchain(code, fileExtension, dir, id).value.run, inputs[i])).stdinError.None?
    requires var tc := RunCodeToolchain(code, fileExtension, dir, id).value;
             forall i :: 0 <= i < |inputs| ==> Exits(tc.compile, tc.run, inputs[i], world)
    ensures var (reply, after) := RunCode(code, fileExtension, inputs, dir, id, true, world, order, files);
            var l := RunCodeLayout(code, fileExtension, dir, id);
            var tc := RunCodeToolchain(code, fileExtension, dir, id).value;
            reply.Json? && |reply.body| == |inputs|
            && (forall i :: 0 <= i < |inputs| ==>
                  reply.body[i] == Some(Entry(inputs[i], RunCommand(tc.compile, tc.run, inputs[i], world).delivered[0])))
            && l.filePath !in after
            && (fileExtension != ".py" ==> l.outputFile !in after && l.outputFile + ".class" !in after)
            && forall p :: p in after <==> p in files + {l.filePath} && p !in Targets(l.filePath, tc.outputFile)
  {
    var l := RunCodeLayout(code, fileExtension, dir, id);
    var tc := RunCodeToolchain(code, fileExtension, dir, id).value;
    RunCodeRunsJob(code, fileExtension, inputs, dir, id, world, order, files);
    CompletesOnceWithEveryResult(tc.compile, tc.run, inputs, l.filePath, tc.outputFile, world, order, files + {l.filePath});
    var ts := Targets(l.filePath, tc.outputFile);
    assert ts[0] == l.filePath;
    if fileExtension != ".py" {
      assert ts[1] == l.outputFile + ".class";
      assert ts[2] == l.outputFile;
    }
  }

  /**
   * An empty `inputs` array passes validation, but the completion branch
   * never runs: no reply, and the source file stays on disk.
   */
  lemma EmptyInputsNeverAnswered(code: string, fileExtension: string, dir: string, id: string,
                                 world: World, order: seq<nat>, files: set<string>)
    requires code != "" && fileExtension in SupportedExtensions
    requires RunCodeOrderFits(code, fileExtension, [], dir, id, world, order)
    ensures var (reply, after) := RunCode(code, fileExtension, [], dir, id, true, world, order, files);
            reply == NoReply && RunCodeLayout(code, fileExtension, dir, id).filePath in after
  {
    var l := RunCodeLayout(code, fileExtension, dir, id);
    var tc := RunCodeToolchain(code, fileExtension, dir, id).value;
    RunCodeRunsJob(code, fileExtension, [], dir, id, world, order, files);
    CompletesIffInputs(tc.compile, tc.run, [], l.filePath, tc.outputFile, world, order, files + {l.filePath});
  }

  /**
   * A compiler or a program that never exits (and no stdin write throwing):
   * no reply, and the source file stays on disk.
   */
  lemma HangingRunNeverAnswered(code: string, fileExtension: string, inputs: seq<Input>, dir: string, id: string,
                                world: World, order: seq<nat>, files: set<string>, silent: nat)
    requires code != "" && fileExtension in SupportedExtensions && silent < |inputs|
    requires RunCodeOrderFits(code, fileExtension, inputs, dir, id, world, order)
    requires var tc := RunCodeToolchain(code, fileExtension, dir, id).value;
             CompileHangs(tc.compile, world)
             || (RunStageStarts(tc.compile, world) && world(RunLaunch(tc.run, inputs[silent])).exit.Hang?)
    requires forall i :: 0 <= i < |inputs| ==>
      world(RunLaunch(RunCodeToolchain(code, fileExtension, dir, id).value.run, inputs[i])).stdinError.None?
    ensures var (reply, after) := RunCode(code, fileExtension, inputs, dir, id, true, world, order, files);
            reply == NoReply && RunCodeLayout(code, fileExtension, dir, id).filePath in after
  {
    var l := RunCodeLayout(code, fileExtension, dir, id);
    var tc := RunCodeToolchain(code, fileExtension, dir, id).value;
    RunCodeRunsJob(code, fileExtension, inputs, dir, id, world, order, files);
    HangNeverAnswered(tc.compile, tc.run, inputs, l.filePath, tc.outputFile, world, order, files + {l.filePath}, silent);
  }

  // ---------------------------------------------------------------------
  // POST /submit-code
  // ---------------------------------------------------------------------

  /** Both programs' paths: the program name comes from the candidate's code and names both. */
  datatype SubmitLayout = SubmitLayout(user: Layout, reference: Layout)

  function SubmitCodeLayout(code: string, fileExtension: string, correctFileExtension: string,
                            dir: string, id: string, correctId: string): (r: SubmitLayout)
    ensures r.user.programName == ProgramName(fileExtension, PrepareSubmitCode(code, fileExtension))
    ensures r.reference.programName == r.user.programName && r.reference.outputFile == r.user.outputFile
    ensures PlacedIn(r.user, fileExtension, dir, id) && PlacedIn(r.reference, correctFileExtension, dir, correctId)
  {
    var name := ProgramName(fileExtension, PrepareSubmitCode(code, fileExtension));
    SubmitLayout(MakeLayout(name, fileExtension, dir, id), MakeLayout(name, correctFileExtension, dir, correctId))
  }

  /** Both jobs go through the switch on the candidate's extension. */
  function SubmitToolchains(code: string, fileExtension: string, correctFileExtension: string,
                            dir: string, id: string, correctId: string): Result<(Toolchain, Toolchain), string> {
    var sl := SubmitCodeLayout(code, fileExtension, correctFileExtension, dir, id, correctId);
    var user := SelectToolchain(fileExtension, sl.user.filePath, dir, sl.user.programName, sl.user.outputFile);
    var reference := SelectToolchain(fileExtension, sl.reference.filePath, dir, sl.reference.programName, sl.reference.outputFile);
    if fileExtension in SupportedExtensions then Ok((user.value, reference.value)) else Err(UnsupportedFileType)
  }

  /**
   * The two interleavings fit the two jobs. Each job sees its own world:
   * the reference runs after the candidate, against what is then on disk.
   */
  predicate SubmitOrdersFit(code: string, fileExtension: string, correctFileExtension: string, inputs: seq<Input>,
                            dir: string, id: string, correctId: string,
                            userWorld: World, userOrder: seq<nat>, refWorld: World, refOrder: seq<nat>) {
    var tcs := SubmitToolchains(code, fileExtension, correctFileExtension, dir, id, correctId);
    tcs.Ok? ==>
      IsInterleaving(userOrder, Traces(tcs.value.0.compile, tcs.value.0.run, inputs, userWorld))
      && IsInterleaving(refOrder, Traces(tcs.value.1.compile, tcs.value.1.run, inputs, refWorld))
  }

  /**
   * `POST /submit-code`: write both files, then run the candidate's job; the
   * reference job starts from the candidate's completion branch, and the
   * reply from the reference's.
   */
  function SubmitCode(code: string, fileExtension: string, correctFileExtension: string, inputs: seq<Input>,
                      dir: string, id: string, correctId: string, writeOk: bool, correctWriteOk: bool,
                      userWorld: World, userOrder: seq<nat>, refWorld: World, refOrder: seq<nat>,
                      files: set<string>): (Reply<Verdict>, set<string>)
    requires SubmitOrdersFit(code, fileExtension, correctFileExtension, inputs, dir, id, correctId,
                             userWorld, userOrder, refWorld, refOrder)
  {
    var sl := SubmitCodeLayout(code, fileExtension, correctFileExtension, dir, id, correctId);
    if !writeOk then (Rejected(500, ErrorWritingFile), files)
    else if !correctWriteOk then (Rejected(500, ErrorWritingCorrectFile), files + {sl.user.filePath})
    else
      var written := files + {sl.user.filePath, sl.reference.filePath};
      match SubmitToolchains(code, fileExtension, correctFileExtension, dir, id, correctId)
      case Err(message) => (Rejected(400, message), written)
      case Ok((u, r)) =>
        GradeJobs(inputs, u, sl.user.filePath, userWorld, userOrder, r, sl.reference.filePath, refWorld, refOrder, written)
  }

  /**
   * The `processCode` chain: the candidate's job, the reference job from
   * the candidate's completion branch, the comparison from the reference's.
   */
  function GradeJobs(inputs: seq<Input>, u: Toolchain, userPath: string, userWorld: World, userOrder: seq<nat>,
                     r: Toolchain, refPath: string, refWorld: World, refOrder: seq<nat>,
                     written: set<string>): (Reply<Verdict>, set<string>)
    requires IsInterleaving(userOrder, Traces(u.compile, u.run, inputs, userWorld))
    requires IsInterleaving(refOrder, Traces(r.compile, r.run, inputs, refWorld))
  {
    match ProcessCode(u.compile, u.run, inputs, userPath, u.outputFile, userWorld, userOrder, written)
    case Pending => (NoReply, written)
    case Completed(userResults, afterUser) =>
      match ProcessCode(r.compile, r.run, inputs, refPath, r.outputFile, refWorld, refOrder, afterUser)
      case Pending => (NoReply, afterUser)
      case Completed(correctResults, afterReference) =>
        (Json(CompareOutputs(inputs, userResults, correctResults)), afterReference)
  }

  /** With both files written and a supported extension, `/submit-code` answers with the graded jobs. */
  lemma SubmitCodeGradesJobs(code: string, fileExtension: string, correctFileExtension: string, inputs: seq<Input>,
                             dir: string, id: string, correctId: string,
                             userWorld: World, userOrder: seq<nat>, refWorld: World, refOrder: seq<nat>,
                             files: set<string>)
    requires SubmitToolchains(code, fileExtension, correctFileExtension, dir, id, correctId).Ok?
    requires SubmitOrdersFit(code, fileExtension, correctFileExtension, inputs, dir, id, correctId,
                             userWorld, userOrder, refWorld, refOrder)
    ensures var sl := SubmitCodeLayout(code, fileExtension, correctFileExtension, dir, id, correctId);
            var tcs := SubmitToolchains(code, fileExtension, correctFileExtension, dir, id, correctId).value;
            SubmitCode(code, fileExtension, correctFileExtension, inputs, dir, id, correctId, true, true,
                       userWorld, userOrder, refWorld, refOrder, files)
            == GradeJobs(inputs, tcs.0, sl.user.filePath, userWorld, userOrder, tcs.1, sl.reference.filePath,
                         refWorld, refOrder, files + {sl.user.filePath, sl.reference.filePath})
  {
  }

  /**
   * With at least one input, no stdin write throwing and every process
   * ending in either job, the
   * graded reply has one record per input pairing the two results, and
   * every record matches exactly when the two programs produced the same
   * result for every input.
   */
  lemma GradesEveryInput(inputs: seq<Input>, u: Toolchain, userPath: string, userWorld: World, userOrder: seq<nat>,
                         r: Toolchain, refPath: string, refWorld: World, refOrder: seq<nat>, written: set<string>)
    requires |inputs| > 0
    requires IsInterleaving(userOrder, Traces(u.compile, u.run, inputs, userWorld))
    requires IsInterleaving(refOrder, Traces(r.compile, r.run, inputs, refWorld))
    requires forall i :: 0 <= i < |inputs| ==>
               userWorld(RunLaunch(u.run, inputs[i])).stdinError.None?
               && refWorld(RunLaunch(r.run, inputs[i])).stdinError.None?
    requires forall i :: 0 <= i < |inputs| ==>
               Exits(u.compile, u.run, inputs[i], userWorld) && Exits(r.compile, r.run, inputs[i], refWorld)
    ensures var reply := GradeJobs(inputs, u, userPath, userWorld, userOrder, r, refPath, refWorld, refOrder, written).0;
            reply.Json? && |reply.body| == |inputs|
            && (forall i :: 0 <= i < |inputs| ==>
                  var mine := RunCommand(u.compile, u.run, inputs[i], userWorld).delivered[0];
                  var theirs := RunCommand(r.compile, r.run, inputs[i], refWorld).delivered[0];
                  reply.body[i] == Some(Verdict(inputs[i], mine == theirs, mine, Some(theirs))))
            && (AllMatch(reply.body) <==>
                  forall i :: 0 <= i < |inputs| ==>
                    RunCommand(u.compile, u.run, inputs[i], userWorld).delivered[0]
                    == RunCommand(r.compile, r.run, inputs[i], refWorld).delivered[0])
  {
    ProcessCodeCompletesWithEveryResult(u.compile, u.run, inputs, userPath, u.outputFile, userWorld, userOrder, written);
    var user := ProcessCode(u.compile, u.run, inputs, userPath, u.outputFile, userWorld, userOrder, written);
    ProcessCodeCompletesWithEveryResult(r.compile, r.run, inputs, refPath, r.outputFile, refWorld, refOrder, user.remaining);
    var reference := ProcessCode(r.compile, r.run, inputs, refPath, r.outputFile, refWorld, refOrder, user.remaining);
    AllMatchIff(inputs, user.slots, reference.slots);
  }

  /**
   * The reference job only starts once the candidate's has completed: when
   * the candidate's never completes, the reference's world and interleaving
   * make no difference and there is no reply.
   */
  lemma ReferenceWaitsForCandidate(code: string, fileExtension: string, correctFileExtension: string, inputs: seq<Input>,
                                   dir: string, id: string, correctId: string,
                                   userWorld: World, userOrder: seq<nat>, refWorld: World, refOrder: seq<nat>,
                                   refWorld': World, refOrder': seq<nat>, files: set<string>)
    requires SubmitToolchains(code, fileExtension, correctFileExtension, dir, id, correctId).Ok?
    requires SubmitOrdersFit(code, fileExtension, correctFileExtension, inputs, dir, id, correctId,
                             userWorld, userOrder, refWorld, refOrder)
    requires SubmitOrdersFit(code, fileExtension, correctFileExtension, inputs, dir, id, correctId,
                             userWorld, userOrder, refWorld', refOrder')
    requires var sl := SubmitCodeLayout(code, fileExtension, correctFileExtension, dir, id, correctId);
             var u := SubmitToolchains(code, fileExtension, correctFileExtension, dir, id, correctId).value.0;
             ProcessCode(u.compile, u.run, inputs, sl.user.filePath, u.outputFile, userWorld, userOrder,
                         files + {sl.user.filePath, sl.reference.filePath}).Pending?
    ensures SubmitCode(code, fileExtension, correctFileExtension, inputs, dir, id, correctId, true, true,
                       userWorld, userOrder, refWorld, refOrder, files).0 == NoReply
    ensures SubmitCode(code, fileExtension, correctFileExtension, inputs, dir, id, correctId, true, true,
                       userWorld, userOrder, refWorld, refOrder, files)
         == SubmitCode(code, fileExtension, correctFileExtension, inputs, dir, id, correctId, true, true,
                       userWorld, userOrder, refWorld', refOrder', files)
  {
  }

  /**
   * The candidate's compiler or program never exits (and no stdin write of
   * the candidate's throws): the reference job never starts, there is no
   * reply, and both source files stay on disk.
   */
  lemma HangingCandidateNeverAnswered(code: string, fileExtension: string, correctFileExtension: string, inputs: seq<Input>,
                                      dir: string, id: string, correctId: string,
                                      userWorld: World, userOrder: seq<nat>, refWorld: World, refOrder: seq<nat>,
                                      files: set<string>, silent: nat)
    requires silent < |inputs|
    requires SubmitToolchains(code, fileExtension, correctFileExtension, dir, id, correctId).Ok?
    requires SubmitOrdersFit(code, fileExtension, correctFileExtension, inputs, dir, id, correctId,
                             userWorld, userOrder, refWorld, refOrder)
    requires var u := SubmitToolchains(code, fileExtension, correctFileExtension, dir, id, correctId).value.0;
             CompileHangs(u.compile, userWorld)
             || (RunStageStarts(u.compile, userWorld) && userWorld(RunLaunch(u.run, inputs[silent])).exit.Hang?)
    requires var u := SubmitToolchains(code, fileExtension, correctFileExtension, dir, id, correctId).value.0;
             forall i :: 0 <= i < |inputs| ==> userWorld(RunLaunch(u.run, inputs[i])).stdinError.None?
    ensures var sl := SubmitCodeLayout(code, fileExtension, correctFileExtension, dir, id, correctId);
            SubmitCode(code, fileExtension, correctFileExtension, inputs, dir, id, correctId, true, true,
                       userWorld, userOrder, refWorld, refOrder, files)
            == (NoReply, files + {sl.user.filePath, sl.reference.filePath})
  {
    var sl := SubmitCodeLayout(code, fileExtension, correctFileExtension, dir, id, correctId);
    var u := SubmitToolchains(code, fileExtension, correctFileExtension, dir, id, correctId).value.0;
    var written := files + {sl.user.filePath, sl.reference.filePath};
    HangNeverAnswered(u.compile, u.run, inputs, sl.user.filePath, u.outputFile, userWorld, userOrder, written, silent);
  }

  /**
   * With at least one input, no stdin write throwing and every process
   * ending in either job, the
   * reply has one record per input pairing the two results, and every
   * record matches exactly when the two programs produced the same result
   * for every input.
   */
  lemma SubmitGradesEveryInput(code: string, fileExtension: string, correctFileExtension: string, inputs: seq<Input>,
                               dir: string, id: string, correctId: string,
                               userWorld: World, userOrder: seq<nat>, refWorld: World, refOrder: seq<nat>,
                               files: set<string>)
    requires |inputs| > 0
    requires SubmitToolchains(code, fileExtension, correctFileExtension, dir, id, correctId).Ok?
    requires SubmitOrdersFit(code, fileExtension, correctFileExtension, inputs, dir, id, correctId,
                             userWorld, userOrder, refWorld, refOrder)
    requires var tcs := SubmitToolchains(code, fileExtension, correctFileExtension, dir, id, correctId).value;
             forall i :: 0 <= i < |inputs| ==>
               userWorld(RunLaunch(tcs.0.run, inputs[i])).stdinError.None?
               && refWorld(RunLaunch(tcs.1.run, inputs[i])).stdinError.None?
    requires var tcs := SubmitToolchains(code, fileExtension, correctFileExtension, dir, id, correctId).value;
             forall i :: 0 <= i < |inputs| ==>
               Exits(tcs.0.compile, tcs.0.run, inputs[i], userWorld) && Exits(tcs.1.compile, tcs.1.run, inputs[i], refWorld)
    ensures var tcs := SubmitToolchains(code, fileExtension, correctFileExtension, dir, id, correctId).value;
            var reply := SubmitCode(code, fileExtension, correctFileExtension, inputs, dir, id, correctId, true, true,
                                    userWorld, userOrder, refWorld, refOrder, files).0;
            reply.Json? && |reply.body| == |inputs|
            && (forall i :: 0 <= i < |inputs| ==>
                  var mine := RunCommand(tcs.0.compile, tcs.0.run, inputs[i], userWorld).delivered[0];
                  var theirs := RunCommand(tcs.1.compile, tcs.1.run, inputs[i], refWorld).delivered[0];
                  reply.body[i] == Some(Verdict(inputs[i], mine == theirs, mine, Some(theirs))))
            && (AllMatch(reply.body) <==>
                  forall i :: 0 <= i < |inputs| ==>
                    RunCommand(tcs.0.compile, tcs.0.run, inputs[i], userWorld).delivered[0]
                    == RunCommand(tcs.1.compile, tcs.1.run, inputs[i], refWorld).delivered[0])
  {
    var sl := SubmitCodeLayout(code, fileExtension, correctFileExtension, dir, id, correctId);
    var tcs := SubmitToolchains(code, fileExtension, correctFileExtension, dir, id, correctId).value;
    SubmitCodeGradesJobs(code, fileExtension, correctFileExtension, inputs, dir, id, correctId,
                         userWorld, userOrder, refWorld, refOrder, files);
    GradesEveryInput(inputs, tcs.0, sl.user.filePath, userWorld, userOrder, tcs.1, sl.reference.filePath,
                     refWorld, refOrder, files + {sl.user.filePath, sl.reference.filePath});
  }

}

=== FILE: stages.dfy ===
/**
 * `runCommand` and `run` (index.js): one input
 * goes through an optional compile stage and then the run stage, and every
 * outcome reaches the caller as a string passed to its callback.
 *
 * Process creation is abstract: a `World` says how each launched process
 * ends and whether writing its standard input throws.
 */
module Stages {
  import opened Wrappers
  import opened JsText

  /** An element of the request's `inputs` array. */
  datatype Input = Text(text: string) | Number(value: int)

  /**
   * How an `exec` child ends: `err` unset with its stdout, or set with its
   * stderr, or never (`exec` is given no timeout, so its callback never runs).
   */
  datatype Exit = Success(stdout: string) | Failure(stderr: string) | Hang

  /** One `exec` call: the command and what is written to its stdin (`None`: stdin untouched). */
  datatype Launch = Launch(command: string, stdin: Option<string>)

  /** The world's answer to a launch: how it exits and, if `stdin.write` throws, the error message. */
  datatype Reaction = Reaction(exit: Exit, stdinError: Option<string>)

  type World = Launch -> Reaction

  /** What handling one input did: the processes launched and the callback's arguments, both in order. */
  datatype Trace = Trace(launched: seq<Launch>, delivered: seq<string>)

  const CompilationErrorPrefix: string := "Compilation error: "
  const ExecutionErrorPrefix: string := "Execution error: "
  const StdinErrorPrefix: string := "Error writing to stdin: "

  /** What `run` writes to stdin: a number in its one canonical decimal form, a string as it is. */
  function StdinPayload(input: Input): (r: string)
    ensures input.Text? ==> r == input.text
    ensures input.Number? ==> ParseDecimal(r) == Some(input.value) && CanonicalDecimal(r)
  {
    match input
    case Text(s) => s
    case Number(n) => DecimalRoundTrip(n); Decimal(n)
  }

  /** The run stage's exec callback, once the process has ended: the trimmed stdout, or the stderr behind a fixed prefix. */
  function RunMessage(exit: Exit): string
    requires !exit.Hang?
  {
    match exit
    case Failure(e) => ExecutionErrorPrefix + e
    case Success(out) => Trim(out)
  }

  /** The launch of the run stage for `input`. */
  function RunLaunch(runCmd: string, input: Input): Launch {
    Launch(runCmd, Some(StdinPayload(input)))
  }

  /**
   * `run`: start the run command, write the input to its stdin, close it.
   * A synchronous throw from `stdin.write` reaches the callback at once; the
   * exec callback still reaches it later, when the process ends.
   */
  function Run(runCmd: string, input: Input, world: World): Trace {
    var launch := RunLaunch(runCmd, input);
    var reaction := world(launch);
    var early := match reaction.stdinError
      case Some(m) => [StdinErrorPrefix + m]
      case None => [];
    Trace([launch], early + if reaction.exit.Hang? then [] else [RunMessage(reaction.exit)])
  }

  /** `if (compileCmd)`: an absent or empty command means no compile stage. */
  predicate HasCompileStage(compileCmd: Option<string>) {
    compileCmd.Some? && compileCmd.value != ""
  }

  /** Whether the compile stage ran and failed. */
  predicate CompileFails(compileCmd: Option<string>, world: World) {
    HasCompileStage(compileCmd) && world(Launch(compileCmd.value, None)).exit.Failure?
  }

  /** Whether the compile stage ran and never ended. */
  predicate CompileHangs(compileCmd: Option<string>, world: World) {
    HasCompileStage(compileCmd) && world(Launch(compileCmd.value, None)).exit.Hang?
  }

  /** Whether the run stage is reached: there is no compile stage, or it succeeded. */
  predicate RunStageStarts(compileCmd: Option<string>, world: World) {
    !HasCompileStage(compileCmd) || world(Launch(compileCmd.value, None)).exit.Success?
  }

  /** Every process started for `input` ends. */
  predicate Exits(compileCmd: Option<string>, runCmd: string, input: Input, world: World) {
    !CompileHangs(compileCmd, world)
    && (RunStageStarts(compileCmd, world) ==> !world(RunLaunch(runCmd, input)).exit.Hang?)
  }

  /**
   * `runCommand`: compile (with stdin untouched) if there is a compile
   * command, then `run` if it succeeded. Some process is always started, and
   * when every process ends the callback runs at least once.
   */
  function RunCommand(compileCmd: Option<string>, runCmd: string, input: Input, world: World): (t: Trace)
    ensures t.launched != []
    ensures Exits(compileCmd, runCmd, input, world) ==> t.delivered != []
  {
    if HasCompileStage(compileCmd) then
      var compile := Launch(compileCmd.value, None);
      match world(compile).exit
      case Failure(e) => Trace([compile], [CompilationErrorPrefix + e])
      case Hang => Trace([compile], [])
      case Success(_) =>
        var run := Run(runCmd, input, world);
        Trace([compile] + run.launched, run.delivered)
    else
      Run(runCmd, input, world)
  }

  /**
   * A failed compile delivers the compiler's stderr behind its prefix, and
   * nothing else: no process with input on its stdin is ever started.
   */
  lemma CompileFailureShortCircuits(compileCmd: Option<string>, runCmd: string, input: Input, world: World)
    requires CompileFails(compileCmd, world)
    ensures var t := RunCommand(compileCmd, runCmd, input, world);
            t.launched == [Launch(compileCmd.value, None)]
            && t.delivered == [CompilationErrorPrefix + world(Launch(compileCmd.value, None)).exit.stderr]
            && forall l :: l in t.launched ==> l.stdin.None?
  {
  }

  /** The run stage is started, with the same command and input, exactly when no compile stage failed or hung. */
  lemma RunStageStartedIff(compileCmd: Option<string>, runCmd: string, input: Input, world: World)
    ensures RunLaunch(runCmd, input) in RunCommand(compileCmd, runCmd, input, world).launched
        <==> RunStageStarts(compileCmd, world)
    ensures RunStageStarts(compileCmd, world) ==>
      RunCommand(compileCmd, runCmd, input, world).delivered == Run(runCmd, input, world).delivered
    ensures RunStageStarts(compileCmd, world) <==> !CompileFails(compileCmd, world) && !CompileHangs(compileCmd, world)
  {
  }

  /**
   * How often one input reaches the callback: once for a failed compile,
   * never for a compile that hangs; once the run stage starts, once for a
   * thrown stdin write (reported first) plus once when the process ends.
   */
  lemma DeliveriesPerInput(compileCmd: Option<string>, runCmd: string, input: Input, world: World)
    ensures var t := RunCommand(compileCmd, runCmd, input, world);
            var reaction := world(RunLaunch(runCmd, input));
            |t.delivered| == (if CompileFails(compileCmd, world) then 1
                              else if CompileHangs(compileCmd, world) then 0
                              else (if reaction.stdinError.Some? then 1 else 0) + (if reaction.exit.Hang? then 0 else 1))
            && (RunStageStarts(compileCmd, world) && reaction.stdinError.Some? ==>
                  t.delivered[0] == StdinErrorPrefix + reaction.stdinError.value)
  {
  }

  /**
   * The last string delivered reports how the run stage ended: the stderr
   * behind the execution prefix, or the stdout with surrounding whitespace
   * removed.
   */
  lemma LastDeliveryReportsRun(compileCmd: Option<string>, runCmd: string, input: Input, world: World)
    requires RunStageStarts(compileCmd, world)
    ensures var t := RunCommand(compileCmd, runCmd, input, world);
            var exit := world(RunLaunch(runCmd, input)).exit;
            (exit.Failure? ==> t.delivered != [] && t.delivered[|t.delivered| - 1] == ExecutionErrorPrefix + exit.stderr)
            && (exit.Success? ==> t.delivered != [] && IsTrimOf(exit.stdout, t.delivered[|t.delivered| - 1]))
  {
    var exit := world(RunLaunch(runCmd, input)).exit;
    if exit.Success? {
      TrimMeetsDescription(exit.stdout);
    }
  }

  /**
   * The delivered string does not say whether a stage failed: a program that
   * prints the compile-failure text is reported exactly like a failed compile.
   */
  lemma FailureIndistinguishableFromOutput(compileCmd: string, runCmd: string, input: Input, e: string, world: World)
    requires compileCmd != ""
    requires e != [] && !IsSpace(e[|e| - 1])
    requires world(Launch(compileCmd, None)).exit == Success("")
    requires world(RunLaunch(runCmd, input)) == Reaction(Success(CompilationErrorPrefix + e), None)
    ensures RunCommand(Some(compileCmd), runCmd, input, world).delivered == [CompilationErrorPrefix + e]
  {
    var out := CompilationErrorPrefix + e;
    assert out[0] == 'C';
    assert out[|out| - 1] == e[|e| - 1];
    assert LeadingSpace(out) == 0;
    assert out[0..] == out;
    assert TrailingSpace(out) == 0;
    assert out[..|out|] == out;
    assert Trim(out) == out;
    assert Run(runCmd, input, world).delivered == [out];
  }
}

=== FILE: toolchains.dfy ===
/**
 * The extension switch of both request handlers: which compile command (if
 * any) and which run command a source file gets, and which output file the
 * cleanup must remove. Command strings are opaque concatenations; path
 * joining and shell quoting are not modelled.
 */
module Toolchains {
  import opened Wrappers

  /** What the switch hands to the fan-out: compile command, run command, output file for cleanup. */
  datatype Toolchain = Toolchain(compile: Option<string>, run: string, outputFile: Option<string>)

  const UnsupportedFileType: string := "Unsupported file type"

  const SupportedExtensions: set<string> := {".java", ".py", ".c", ".cpp"}

  predicate EndsWith(s: string, suffix: string) {
    |suffix| <= |s| && s[|s| - |suffix|..] == suffix
  }

  /**
   * The `switch (fileExtension)` of both handlers. `sourceDir` stands for
   * `path.dirname(filePath)` and `outputFile` for the path of the program
   * name inside the server directory.
   */
  function SelectToolchain(fileExtension: string, filePath: string, sourceDir: string,
                           programName: string, outputFile: string): (r: Result<Toolchain, string>)
    ensures r.Ok? <==> fileExtension in SupportedExtensions
    ensures r.Err? ==> r.error == UnsupportedFileType
    ensures r.Ok? ==> (r.value.compile.None? <==> fileExtension == ".py")
    ensures r.Ok? ==> (r.value.outputFile.None? <==> fileExtension == ".py")
    ensures r.Ok? && r.value.outputFile.Some? ==> r.value.outputFile.value == outputFile
    ensures r.Ok? && fileExtension == ".py" ==> EndsWith(r.value.run, filePath)
    ensures r.Ok? && fileExtension != ".py" ==> EndsWith(r.value.run, programName)
    ensures r.Ok? && fileExtension == ".java" ==> EndsWith(r.value.compile.value, filePath)
    ensures r.Ok? && (fileExtension == ".c" || fileExtension == ".cpp") ==>
      EndsWith(r.value.compile.value, " -o " + outputFile)
  {
    match fileExtension
    case ".java" =>
      Ok(Toolchain(Some("javac " + filePath), "java -cp " + sourceDir + " " + programName, Some(outputFile)))
    case ".py" =>
      Ok(Toolchain(None, "python " + filePath, None))
    case ".c" =>
      Ok(Toolchain(Some("gcc " + filePath + " -o " + outputFile), "./" + programName, Some(outputFile)))
    case ".cpp" =>
      Ok(Toolchain(Some("g++ " + filePath + " -o " + outputFile), "./" + programName, Some(outputFile)))
    case _ =>
      Err(UnsupportedFileType)
  }

  /**
   * `/submit-code` runs the reference solution through the same switch, on
   * the candidate's extension and program name, with only the source path
   * changed (the reference's own extension names its file and nothing else).
   * For every compiled language both jobs therefore run the same command and
   * share one output file.
   */
  lemma ReferenceSharesArtifacts(fileExtension: string, filePath: string, correctFilePath: string,
                                 sourceDir: string, programName: string, outputFile: string)
    requires fileExtension in SupportedExtensions - {".py"}
    ensures var user := SelectToolchain(fileExtension, filePath, sourceDir, programName, outputFile);
            var reference := SelectToolchain(fileExtension, correctFilePath, sourceDir, programName, outputFile);
            user.Ok? && reference.Ok?
            && user.value.run == reference.value.run
            && user.value.outputFile == reference.value.outputFile == Some(outputFile)
            && (filePath != correctFilePath ==> user.value.compile != reference.value.compile)
  {
    var user := SelectToolchain(fileExtension, filePath, sourceDir, programName, outputFile);
    var reference := SelectToolchain(fileExtension, correctFilePath, sourceDir, programName, outputFile);
    if filePath != correctFilePath {
      if fileExtension == ".java" {
        assert user.value.compile.value[6..] == filePath;
        assert reference.value.compile.value[6..] == correctFilePath;
      } else {
        assert user.value.compile.value[4..4 + |filePath|] == filePath;
        assert user.value.compile.value[4..] == filePath + " -o " + outputFile;
        assert reference.value.compile.value[4..] == correctFilePath + " -o " + outputFile;
        assert |user.value.compile.value| != |reference.value.compile.value|
            || user.value.compile.value[4..4 + |filePath|] != reference.value.compile.value[4..4 + |filePath|];
      }
    }
  }
}

=== FILE: wrappers.dfy ===
/** Optional values and results with an error, as used throughout the model. */
module Wrappers {

  datatype Option<+T> = None | Some(value: T)

  datatype Result<+T, +E> = Ok(value: T) | Err(error: E)
}
